=== FILE: README.md ===
# URL shortener core, modelled in Dafny

This project models the core of a PHP URL-shortening library. The model covers:

- **UrlShortener (the manager)**: `shorten`, `expand`, `exists`, `delete`, `getAnalytics`, `getUrlRecord`, `updateMetadata`, and the private `trackClick` and `generateUniqueCode`.
- **Storage**: the storage contract (StorageInterface) and its reference backend, MemoryStorage.
- **Records**: the two value records, UrlRecord and AnalyticsRecord, and their array forms.
- **Generators**: the sequential and the random code generator.
- **UrlValidator**: `isValid` and `normalize`.

Modules (one file each):

| module | file | models |
|---|---|---|
| `Wrappers` | wrappers.dfy | `Option` and `Result` |
| `Errors` | errors.dfy | the exception kinds: invalid URL, code not found, generation exhausted, storage failure, invalid argument, malformed array |
| `Text` | text.dfy | PHP `trim`, ASCII `strtolower`, `empty` on strings |
| `Decimal` | decimal.dfy | `(string) $n`, `str_pad(..., '0', STR_PAD_LEFT)` and the digit reader that inverts them |
| `Records` | records.dfy | UrlRecord, AnalyticsRecord, `isExpired`, `toArray` / `fromArray` |
| `Storage` | storage.dfy | MemoryStorage; the storage contract as a predicate over any backend |
| `Generators` | generators.dfy | SequentialCodeGenerator, RandomCodeGenerator |
| `Validation` | validator.dfy | UrlValidator |
| `Manager` | manager.dfy | UrlShortener |
| `Lifecycle` | lifecycle.dfy | properties that span several manager calls |

How the model is set up:

- **State is explicit.** Every manager call takes a `State` and returns an `Outcome`. An `Outcome` holds the result (a value or an `Error`) and the state left behind. An exception does not undo writes that came before it.
- **Storage backends are abstract.** A storage backend is a `Backend<S>` over any state type `S`. It has the six interface operations plus a `view` that reads the state as MemoryStorage contents.
  - `Storage.Conforms` is the storage contract. Each operation must do to the view what MemoryStorage does to itself. A write that reports failure must leave the view unchanged.
  - `Storage.Reliable` adds that writes never fail.
  - MemoryStorage itself is `Storage.Memory()`, and it satisfies both.
- **The generator is a stream.** Inside the manager, the generator is the stream `codes` of the values its successive `generate()` calls return. The state counts how many of them were drawn.
- **Time is a parameter.** Instants are integers in microseconds. Each manager call takes the current time as a parameter.

## Model

| member | source | states |
|---|---|---|
| `Text.Trim` | src/UrlValidator.php:61 | trim removes only whitespace/NUL characters, from both ends, and leaves none at either end |
| `Text.ToLower` | src/UrlValidator.php:78 | strtolower keeps the length and lower-cases exactly the ASCII capitals |
| `Text.ToLowerIdempotent` | src/UrlValidator.php:78 | lower-casing twice is lower-casing once; no capital survives |
| `Decimal.NatToString` | src/Generator/SequentialCodeGenerator.php:32 | the decimal rendering of the counter is a non-empty digit string with no leading zero, one digit exactly below 10 |
| `Decimal.PadLeft` | src/Generator/SequentialCodeGenerator.php:32 | str_pad left-pads to the width with the pad character, keeps the string as the suffix, leaves longer strings alone |
| `Decimal.Padded` | src/Generator/SequentialCodeGenerator.php:32 | the padded counter is all digits and exactly as long as the wider of `padding` and the counter's numeral |
| `Decimal.PaddedShape` | src/Generator/SequentialCodeGenerator.php:32 | the padded counter is the numeral preceded by zeros only |
| `Decimal.ValueOfNatToString` | src/Generator/SequentialCodeGenerator.php:32 | reading the rendering of n gives n back |
| `Decimal.ValueOfPadded` | src/Generator/SequentialCodeGenerator.php:32 | reading the zero-padded rendering gives the counter back, for any width |
| `Decimal.PaddedInjective` | src/Generator/SequentialCodeGenerator.php:32 | different counters pad to different strings at one width |
| `Records.TruncateToSecond` | src/Entity/UrlRecord.php:88 | a 'Y-m-d H:i:s' round trip keeps the whole second below the instant |
| `Records.UrlRecord.WithClickCount` | src/Entity/UrlRecord.php:69-74 | the copy has the new click count and every other field unchanged |
| `Records.UrlRecord.WithMetadata` | src/Entity/UrlRecord.php:76-81 | the copy has the new metadata and every other field unchanged |
| `Records.UrlRecord.IncrementClickCount` | src/Entity/UrlRecord.php:55-58 | one more click, nothing else changed |
| `Records.NewUrlRecord` | src/Entity/UrlRecord.php:15-23 | constructor defaults: no expiry, zero clicks, empty metadata; such a record never expires |
| `Records.ExpiryBoundary` | src/Entity/UrlRecord.php:60-67 | no expiry never expires; with one, expired iff now is strictly later, so live at the expiry instant itself |
| `Records.ExpiryIsMonotone` | src/Entity/UrlRecord.php:60-67 | once expired, expired at every later time |
| `Records.UrlToRow` | src/Entity/UrlRecord.php:83-93 | toArray sets every key to the record's field; created_at and expires_at are the formatted instants, and expires_at is null exactly when there is no expiry |
| `Records.UrlFromRow` | src/Entity/UrlRecord.php:95-105 | fromArray fails exactly when short_code, original_url or created_at is missing; a present key reads as the value it holds (times parsed from their text); a missing click count, metadata or expiry reads as 0, empty, none |
| `Records.UrlRowRoundTrip` | src/Entity/UrlRecord.php:83-105 | fromArray(toArray(r)) is r with its timestamps cut to whole seconds |
| `Records.NewAnalyticsRecord` | src/Entity/AnalyticsRecord.php:14-22 | constructor defaults: no IP, user agent or referrer, no additional data |
| `Records.AnalyticsToRow` | src/Entity/AnalyticsRecord.php:54-64 | toArray keeps the code, client details and additional data, and clicked_at is the formatted click time |
| `Records.AnalyticsFromRow` | src/Entity/AnalyticsRecord.php:66-76 | fromArray fails exactly when short_code or clicked_at is missing; clicked_at and a present additional_data read as the values they hold; missing optional keys read as null or empty |
| `Records.AnalyticsRowRoundTrip` | src/Entity/AnalyticsRecord.php:54-76 | fromArray(toArray(a)) is a with the click time cut to whole seconds |
| `Storage.MemoryStorage.Store` | src/Storage/MemoryStorage.php:21-25 | upsert under the record's own code, other codes and all clicks untouched, always true |
| `Storage.MemoryStorage.Retrieve` | src/Storage/MemoryStorage.php:27-30 | the stored record or null, no expiry filtering |
| `Storage.MemoryStorage.Exists` | src/Storage/MemoryStorage.php:32-35 | exists iff retrieve is non-null |
| `Storage.MemoryStorage.Delete` | src/Storage/MemoryStorage.php:37-45 | true iff a record was stored; then record and clicks are removed, otherwise nothing changes |
| `Storage.MemoryStorage.StoreAnalytics` | src/Storage/MemoryStorage.php:47-57 | appends the click to its code's list (record or not), other lists and records untouched, always true |
| `Storage.MemoryStorage.GetAnalytics` | src/Storage/MemoryStorage.php:59-62 | the list for the code, empty when none |
| `Storage.Empty` | src/Storage/MemoryStorage.php:15-19 | a new storage holds no record and no click |
| `Storage.Clear` | src/Storage/MemoryStorage.php:67-71 | clear empties both maps |
| `Storage.RetrieveAfterDelete` | src/Storage/MemoryStorage.php:37-45 | after delete the code retrieves null, and its clicks are gone if there was a record |
| `Storage.StoreThenDelete` | src/Storage/MemoryStorage.php:21-45 | a stored record can be deleted, which removes exactly its code |
| `Storage.MemoryConforms` | src/Storage/StorageInterface.php:13-44 | MemoryStorage meets the storage contract and never fails a write |
| `Generators.Code` | src/Generator/SequentialCodeGenerator.php:32 | a sequential code starts with the prefix and is at least prefix + padding long |
| `Generators.CodeReadsBack` | src/Generator/SequentialCodeGenerator.php:32 | the digits after the prefix read back as the counter |
| `Generators.CodeInjective` | src/Generator/SequentialCodeGenerator.php:32 | different counters give different codes |
| `Generators.SequentialGenerator.Generate` | src/Generator/SequentialCodeGenerator.php:30-36 | returns the prefix followed by digits only, exactly as many as the wider of `padding` and the counter's numeral, reading back as the counter; advances the counter by exactly one, prefix and padding kept |
| `Generators.SequentialGenerator.SetCounter` | src/Generator/SequentialCodeGenerator.php:43-50 | refuses values below 1 with "Counter must be at least 1", otherwise sets the counter and nothing else |
| `Generators.SequentialGenerator.Outputs` | src/Generator/SequentialCodeGenerator.php:30-36 | n successive generate() calls give n codes |
| `Generators.NewSequentialGenerator` | src/Generator/SequentialCodeGenerator.php:14-28 | fails iff padding < 1 or start < 1, checking padding first, each with its message; otherwise keeps the arguments |
| `Generators.OutputAt` | src/Generator/SequentialCodeGenerator.php:30-36 | the i-th generated code is the code for counter + i |
| `Generators.OutputsFollowCounter` | src/Generator/SequentialCodeGenerator.php:30-36 | all generated codes follow the counter |
| `Generators.StreamIsOutputs` | src/Generator/SequentialCodeGenerator.php:30-36 | the stream the manager draws is what successive generate() calls return |
| `Generators.OutputsDistinct` | src/Generator/SequentialCodeGenerator.php:30-36 | a sequential generator never repeats a code between counter resets |
| `Generators.SequentialExample` | src/Generator/SequentialCodeGenerator.php:14-36 | prefix "test", padding 3, start 1 yields "test001" then "test002" |
| `Generators.DefaultSequentialExample` | src/Generator/SequentialCodeGenerator.php:14-36 | the constructor's defaults (no prefix, padding 3, start 1) are accepted and yield "001" then "002" |
| `Generators.FirstTwoOutputs` | src/Generator/SequentialCodeGenerator.php:30-36 | two generate() calls emit the codes of the counter and of the counter plus one |
| `Generators.AlphanumericIsAlnum` | src/Generator/RandomCodeGenerator.php:12 | the default alphabet is exactly the 62 ASCII letters and digits |
| `Generators.RandomCodeGenerator.Generate` | src/Generator/RandomCodeGenerator.php:27-37 | a code of the configured length whose k-th character is the alphabet character at the k-th random index |
| `Generators.NewRandomCodeGenerator` | src/Generator/RandomCodeGenerator.php:14-25 | fails iff length < 1 or the alphabet is PHP-empty ("" or "0"), length first, each with its message |
| `Generators.DefaultRandomCodes` | src/Generator/RandomCodeGenerator.php:12-37 | a default generator emits six letters or digits |
| `Validation.IsValid` | src/UrlValidator.php:26-54 | valid iff within the length limit, accepted by the URL filter, parsed with a scheme whose lower case is allowed, and with a non-empty host |
| `Validation.TooLongRejected` | src/UrlValidator.php:29-31 | an over-long URL is rejected whatever the parser says |
| `Validation.SchemeCaseIgnored` | src/UrlValidator.php:44-46 | scheme case does not affect validity |
| `Validation.CustomSchemesExample` | tests/Unit/UrlValidatorTest.php:58-65 | with ["ftp", "sftp"] an http URL is rejected and a well-formed ftp URL accepted |
| `Validation.DefaultRejectsFtp` | tests/Unit/UrlValidatorTest.php:34-38 | the default validator (allow-list http and https, 2048 characters) rejects an ftp URL |
| `Validation.WithScheme` | src/UrlValidator.php:61-66 | the trimmed URL, prefixed with "http://" unless it starts with http:// or https:// |
| `Validation.TrimFixed` | src/UrlValidator.php:61 | trimming a string without whitespace at its ends changes nothing |
| `Validation.WithSchemeIdempotent` | src/UrlValidator.php:61-66 | the trim-and-prefix step is idempotent |
| `Validation.UpperCaseSchemePrefixed` | src/UrlValidator.php:64-66 | the prefix test is case-sensitive: "HTTP://..." gets a second scheme |
| `Validation.BareHostPrefixed` | src/UrlValidator.php:64-66 | a bare host gets "http://" in front |
| `Validation.Reassemble` | src/UrlValidator.php:75-101 | the rebuilt URL starts with the lower-cased scheme and "://" and ends with "#" and the fragment |
| `Validation.PortDropping` | src/UrlValidator.php:85-87 | ports 80 and 443 vanish for any scheme; every other port puts ":" and its decimal digits right after the host, with the rest of the URL unchanged |
| `Validation.HostCaseIgnored` | src/UrlValidator.php:81-83 | hosts equal up to case normalize alike |
| `Validation.ReassembleLayout` | src/UrlValidator.php:75-101 | with every component set and a port other than 80 or 443, the rebuilt URL is scheme, "://", host, ":" port, path, "?" query, "#" fragment in that order, without user or password |
| `Validation.ReassembleBare` | src/UrlValidator.php:75-83 | a scheme and a host alone rebuild to the lower-cased scheme, "://" and the lower-cased host |
| `Validation.ReassembleHostPath` | src/UrlValidator.php:75-93 | a scheme, a host and a path rebuild to the lower-cased scheme, "://", the lower-cased host and the path as it was |
| `Validation.Normalize` | src/UrlValidator.php:59-102 | when parse_url fails or returns an empty array the trimmed, prefixed URL is returned; otherwise the result starts with the lower-cased scheme |
| `Validation.NormalizeParsed` | src/UrlValidator.php:69-101 | when parse_url yields components, normalize returns their reassembly |
| `Validation.NormalizeBareHost` | src/UrlValidator.php:59-102 | a bare host normalizes to "http://" and the lower-cased host |
| `Validation.NormalizeExampleLower` | tests/Unit/UrlValidatorTest.php:70 | "example.com" normalizes to "http://example.com" |
| `Validation.NormalizeExampleUpper` | tests/Unit/UrlValidatorTest.php:71 | "EXAMPLE.COM" normalizes to "http://example.com" |
| `Validation.NormalizeExamplePath` | tests/Unit/UrlValidatorTest.php:72 | "https://EXAMPLE.COM/PATH" normalizes to "https://example.com/PATH" |
| `Manager.Click` | src/UrlShortener.php:161-167 | the tracked click carries the code, the time and the client details |
| `Manager.Fresh` | src/UrlShortener.php:44-51 | the stored record is created now with zero clicks and the given expiry and metadata |
| `Manager.FindUnique` | src/UrlShortener.php:179-186 | each pass draws a code; the loop stops at the first code storage does not hold, or raises once the attempts exceed ten |
| `Manager.GenerateUniqueCode` | src/UrlShortener.php:175-189 | returns the first free code among the first ten drawn, else raises after drawing an eleventh |
| `Manager.Shorten` | src/UrlShortener.php:33-58 | invalid URL raises with nothing changed; exhaustion means all ten checked codes were taken; success stores a fresh record under the first free code and changes nothing else |
| `Manager.StoreFresh` | src/UrlShortener.php:44-57 | the final write of shorten: on success the code is returned and the new record stored; a store that reports failure raises with the contents unchanged; an infallible backend always succeeds |
| `Manager.TrackClick` | src/UrlShortener.php:154-170 | one more click on the record and one appended click record, for the record's own code only |
| `Manager.Expand` | src/UrlShortener.php:63-80 | absent and expired codes raise not-found with nothing changed; a live code returns its URL and, with tracking, gains exactly one click |
| `Manager.Exists` | src/UrlShortener.php:85-89 | true iff a record is stored and not expired |
| `Manager.Delete` | src/UrlShortener.php:94-97 | a true result removes the record and its clicks and implies the code was stored; false leaves storage as it was |
| `Manager.GetAnalytics` | src/UrlShortener.php:102-120 | raises iff no record is stored (expired ones included); reports the record's fields, total_clicks = click count and the stored clicks |
| `Manager.GetUrlRecord` | src/UrlShortener.php:125-134 | the stored record, expired or not; raises iff absent |
| `Manager.UpdateMetadata` | src/UrlShortener.php:139-149 | raises iff absent; otherwise replaces only the metadata and returns the storage flag |
| `Lifecycle.ShortenSucceedsIffFreeCode` | src/UrlShortener.php:33-58 | over infallible storage a valid URL is shortened iff one of the ten codes checked is free |
| `Lifecycle.ShortenThenExpand` | tests/Integration/UrlShortenerIntegrationTest.php:28-42 | a shortened code exists and expands to its URL until it expires |
| `Lifecycle.ExpiredAsymmetry` | src/UrlShortener.php:63-134 | an expired code does not expand or exist, but its record and analytics stay readable |
| `Lifecycle.ShortenExpiredThenExpand` | tests/Integration/UrlShortenerIntegrationTest.php:61-66 | shortening with a past expiry and expanding raises not-found |
| `Lifecycle.DeleteThenGone` | tests/Integration/UrlShortenerIntegrationTest.php:110-127 | after a successful delete the code does not exist, has no record, and deleting again returns false |
| `Lifecycle.MetadataRoundTrip` | tests/Integration/UrlShortenerIntegrationTest.php:97-108 | updateMetadata then getUrlRecord returns the new metadata and the rest of the record unchanged |
| `Lifecycle.EmptyIsConsistent` | src/Storage/MemoryStorage.php:15-19 | a new storage satisfies the click-count invariant |
| `Lifecycle.ShortenKeepsConsistent` | src/UrlShortener.php:42-55 | shortening keeps the click-count invariant |
| `Lifecycle.ExpandKeepsConsistent` | src/UrlShortener.php:154-170 | a tracked click raises the count and the click list together |
| `Lifecycle.DeleteKeepsConsistent` | src/Storage/MemoryStorage.php:37-45 | deleting removes record and clicks together |
| `Lifecycle.UpdateMetadataKeepsConsistent` | src/UrlShortener.php:139-149 | a metadata update keeps the click count |
| `Lifecycle.RunKeepsConsistent` | src/UrlShortener.php:33-170 | over infallible storage, any sequence of manager calls keeps every click count equal to its number of stored clicks |
| `Lifecycle.MemoryClickCountsMatch` | src/UrlShortener.php:102-120 | over MemoryStorage, after any history, total_clicks equals the number of listed clicks |
| `Lifecycle.ExpandOnce` | src/UrlShortener.php:154-170 | one tracked expansion of a live code adds one to its count and one click, and the code stays live |
| `Lifecycle.ExpandTimesCounts` | src/UrlShortener.php:154-170 | n tracked expansions add n to the count and n clicks |
| `Lifecycle.ClicksAfterExpands` | tests/Integration/UrlShortenerIntegrationTest.php:69-83 | shortening then expanding n times gives total_clicks = n and n listed clicks |
| `Lifecycle.NothingResolvesInitially` | tests/Integration/UrlShortenerIntegrationTest.php:91-95 | in a new storage every code expands to not-found |
| `Lifecycle.SequentialScenario` | tests/Integration/UrlShortenerIntegrationTest.php:129-146 | with the sequential generator the first two URLs get "test001" and "test002" and expand back |
| `Lifecycle.RandomScenario` | tests/Integration/UrlShortenerIntegrationTest.php:21-42 | with the default random generator the first URL gets a six-character alphanumeric code that expands back |

## Left out

- DatabaseStorage and FileStorage: not part of this model. The manager theorems hold for any backend that meets the storage contract (`Storage.Conforms`), and neither of these two does:
  - DatabaseStorage's upsert leaves click_count unchanged on an existing row (src/Storage/DatabaseStorage.php:28-33), so a tracked click is not counted.
  - DatabaseStorage lists clicks newest first (src/Storage/DatabaseStorage.php:135), not in insertion order.
  - FileStorage reads records back through `fromArray` (src/Storage/FileStorage.php:51), which truncates times to whole seconds.
  - FileStorage raises runtime exceptions on unreadable or malformed files (src/Storage/FileStorage.php:108-157), which the contract has no room for.
- The `getAllUrls()` debug accessor of MemoryStorage and the plain getters of every class are not separate members. They are the datatypes' fields.
- `incrementClickCount()` mutates the record in place. It is modelled by `Records.UrlRecord.IncrementClickCount`, which returns the changed copy.
  - MemoryStorage hands out the very object it holds (src/Storage/MemoryStorage.php:29), and `getUrlRecord` passes it on to the caller (src/UrlShortener.php:133). Calling `incrementClickCount()` on such a record therefore changes what the storage holds, without any manager call. The model's records are values, so it has no such aliasing.
  - The click-count theorems (`Lifecycle.MemoryClickCountsMatch` and `Lifecycle.ClicksAfterExpands`) cover histories made of manager calls only.
- Default arguments are explicit parameters. `expand`'s `$trackClick` defaults to true (src/UrlShortener.php:63), and `shorten`'s `$expiresAt` and `$metadata` default to null and `[]` (src/UrlShortener.php:33-37). `Lifecycle.ClicksAfterExpands` and the scenarios pass these values where the integration test leaves the arguments out.
- The clock, `random_int` and `$_SERVER` are parameters.
  - The current time is the `now` argument, one per manager call, so a call reads a single time.
  - The random indices are the `draws` argument of `RandomCodeGenerator.Generate`.
  - The request's IP, user agent and referrer form a `ClientContext`.
- `filter_var(FILTER_VALIDATE_URL)` and `parse_url` are PHP library internals. They are the two oracles of a `Validation.UrlLib`, so the concrete accept/reject cases of the validator unit test, which depend on them, are not stated.
- The 'Y-m-d H:i:s' text format and time zones are not modelled. A serialized timestamp is its whole-second count.
- PHP integer overflow is not modelled. The counter and the click count are unbounded integers, which never overflow. The code raises at `PHP_INT_MAX` instead:
  - `$this->counter++` on the typed `int` property (src/Generator/SequentialCodeGenerator.php:33) throws an Error, since a typed property cannot be incremented past its maximal value.
  - `withClickCount($record->getClickCount() + 1)` (src/UrlShortener.php:157) passes a float to an `int` parameter, which throws a TypeError under `strict_types`.
- Strings are sequences of single-byte characters, so `strlen` is the sequence length. Multi-byte encodings are not modelled.
- `fromArray` with values of the wrong type raises a TypeError. The model covers missing keys only.
- Concurrency is not modelled. This includes the lost-update race between two tracked expansions of one code: every call runs to completion before the next one starts.
- The random generator's uniqueness over many calls is a probabilistic property and is not stated. Collision handling is modelled in the manager instead.
- `Generators.Code`: its contract states only the prefix and the length bound. The digits after the prefix and their exact count are in the contract of `Generators.SequentialGenerator.Generate`. That the digits read back as the counter is `Generators.CodeReadsBack`, and injectivity is `Generators.CodeInjective`.
- `Validation.Reassemble`: its contract states only the scheme prefix and the fragment suffix. The full order of the parts is `Validation.ReassembleLayout` (every part set), `Validation.ReassembleBare` (scheme and host only) and `Validation.ReassembleHostPath`. The port rule and the host case are `Validation.PortDropping` and `Validation.HostCaseIgnored`. Layouts with some but not all of port, path, query and fragment are not stated one by one.
- `Validation.Normalize`: its contract states only the unparsed and empty-array cases and the scheme prefix. The parsed case is `Validation.NormalizeParsed`.

## Notes on the code

Behaviours of the code that are easy to misread, and which the model keeps:

- `normalize` drops ports 80 and 443 whatever the scheme, not only the scheme's own default port.
- The generation loop calls `generate()` up to eleven times. Only ten of the codes are checked for uniqueness; the eleventh is drawn and then discarded when the loop raises.
- `exists` returns false for an expired code rather than raising.
- Generation exhaustion and a failed store are plain runtime exceptions in the code. They are modelled as the `GenerationExhausted` and `StorageFailure` errors.
- `trackClick` ignores the success flags of both of its writes.
- The random generator's constructor uses PHP's `empty`, so it also refuses the one-character alphabet "0". The validator's host test does the same with a host named "0".

=== FILE: decimal.dfy ===
/** Decimal rendering of non-negative integers, PHP's `(string) $n` and
    `str_pad(..., '0', STR_PAD_LEFT)`, together with the reading function that
    inverts them. */
module Decimal {

  predicate IsDigit(c: char)
  {
    '0' <= c <= '9'
  }

  predicate AllDigits(s: string)
  {
    forall k :: 0 <= k < |s| ==> IsDigit(s[k])
  }

  function DigitChar(d: nat): (c: char)
    requires d < 10
    ensures IsDigit(c) && c as int - '0' as int == d
  {
    (d + '0' as int) as char
  }

  /** The numeric value of a digit character (0 for any other character). */
  function DigitValue(c: char): (d: nat)
    ensures d < 10
  {
    if IsDigit(c) then c as int - '0' as int else 0
  }

  /** `(string) $n` for `n >= 0`: the shortest decimal numeral of `n`. */
  function NatToString(n: nat): (s: string)
    ensures |s| >= 1
    ensures forall k :: 0 <= k < |s| ==> IsDigit(s[k])
    ensures n > 0 ==> s[0] != '0'
    ensures n < 10 <==> |s| == 1
    decreases n
  {
    if n < 10 then [DigitChar(n)] else NatToString(n / 10) + [DigitChar(n % 10)]
  }

  /** Reads a string of digits as a decimal number; leading zeros add nothing. */
  function Value(s: string): nat
  {
    if s == [] then 0 else 10 * Value(s[..|s| - 1]) + DigitValue(s[|s| - 1])
  }

  function Repeat(c: char, n: nat): (r: string)
    ensures |r| == n
    ensures forall k :: 0 <= k < n ==> r[k] == c
  {
    if n == 0 then [] else [c] + Repeat(c, n - 1)
  }

  /** `str_pad($s, $width, $c, STR_PAD_LEFT)`: `s` preceded by enough copies of
      `c` to reach `width` characters; a longer `s` is returned untouched. */
  function PadLeft(s: string, width: int, c: char): (r: string)
    ensures |r| == if |s| >= width then |s| else width
    ensures r[|r| - |s|..] == s
    ensures forall k :: 0 <= k < |r| - |s| ==> r[k] == c
  {
    if |s| >= width then s else Repeat(c, width - |s|) + s
  }

  /** How long `str_pad((string) $n, $width, ...)` is: the wider of `width`
      and the numeral of `n`. */
  function PaddedWidth(n: nat, width: int): int
  {
    if |NatToString(n)| >= width then |NatToString(n)| else width
  }

  /** `str_pad((string) $n, $width, '0', STR_PAD_LEFT)`. */
  function Padded(n: nat, width: int): (r: string)
    ensures |r| >= width && |r| >= 1
    ensures forall k :: 0 <= k < |r| ==> IsDigit(r[k])
    ensures |r| == PaddedWidth(n, width)
  {
    PadLeft(NatToString(n), width, '0')
  }

  /** The padded counter is its numeral preceded by zeros only. */
  lemma PaddedShape(n: nat, width: int)
    ensures var r := Padded(n, width);
      && r[|r| - |NatToString(n)|..] == NatToString(n)
      && forall k :: 0 <= k < |r| - |NatToString(n)| ==> r[k] == '0'
  {
  }

  /** Reading the rendering of `n` gives back `n`. */
  lemma {:induction false} ValueOfNatToString(n: nat)
    ensures Value(NatToString(n)) == n
    decreases n
  {
    if n >= 10 {
      var s := NatToString(n);
      assert s[..|s| - 1] == NatToString(n / 10);
      ValueOfNatToString(n / 10);
    }
  }

  /** Leading zeros do not change the value read. */
  lemma {:induction false} ValueIgnoresLeadingZeros(k: nat, s: string)
    ensures Value(Repeat('0', k) + s) == Value(s)
    decreases |s|
  {
    var z := Repeat('0', k);
    if s == [] {
      assert z + s == z;
      ValueOfZeros(k);
    } else {
      var t := z + s;
      assert t[..|t| - 1] == z + s[..|s| - 1];
      assert t[|t| - 1] == s[|s| - 1];
      ValueIgnoresLeadingZeros(k, s[..|s| - 1]);
    }
  }

  lemma {:induction false} ValueOfZeros(k: nat)
    ensures Value(Repeat('0', k)) == 0
    decreases k
  {
    if k > 0 {
      var z := Repeat('0', k);
      assert z[..|z| - 1] == Repeat('0', k - 1);
      ValueOfZeros(k - 1);
    }
  }

  /** Reading the zero-padded rendering of `n` gives back `n`, whatever the width. */
  lemma ValueOfPadded(n: nat, width: int)
    ensures Value(Padded(n, width)) == n
  {
    var s := NatToString(n);
    ValueOfNatToString(n);
    if |s| < width {
      ValueIgnoresLeadingZeros(width - |s|, s);
    }
  }

  /** Zero-padded rendering at a fixed width is injective. */
  lemma PaddedInjective(m: nat, n: nat, width: int)
    requires Padded(m, width) == Padded(n, width)
    ensures m == n
  {
    ValueOfPadded(m, width);
    ValueOfPadded(n, width);
  }
}

=== FILE: errors.dfy ===
/** The exceptions the library raises, as one datatype. */
module Errors {

  datatype Error =
      /** InvalidUrlException: the validator rejected the URL. */
    | InvalidUrl(url: string)
      /** ShortCodeNotFoundException: the code is absent (or, for expand, expired). */
    | ShortCodeNotFound(code: string)
      /** RuntimeException raised when ten candidate codes all collided. */
    | GenerationExhausted
      /** RuntimeException raised when the backend refused to store the new record. */
    | StorageFailure
      /** InvalidArgumentException from a generator constructor or setter. */
    | InvalidArgument(message: string)
      /** TypeError raised when a serialized row lacks a required field. */
    | MalformedRow
}

=== FILE: generators.dfy ===
/** The two short-code generators. SequentialCodeGenerator is a counter
    rendered after a prefix; RandomCodeGenerator draws characters from an
    alphabet, with `random_int` replaced by the sequence of indices it returned. */
module Generators {
  import opened Wrappers
  import opened Errors
  import opened Text
  import opened Decimal

  /** The code a sequential generator emits when its counter is `n`. */
  function Code(prefix: string, padding: int, n: nat): (code: string)
    ensures StartsWith(code, prefix)
    ensures |code| >= |prefix| + padding
  {
    prefix + Padded(n, padding)
  }

  /** Reading the digits after the prefix gives back the counter. */
  lemma CodeReadsBack(prefix: string, padding: int, n: nat)
    ensures Value(Code(prefix, padding, n)[|prefix|..]) == n
  {
    assert Code(prefix, padding, n)[|prefix|..] == Padded(n, padding);
    ValueOfPadded(n, padding);
  }

  /** Under one prefix and padding, different counters give different codes. */
  lemma CodeInjective(prefix: string, padding: int, m: nat, n: nat)
    requires m != n
    ensures Code(prefix, padding, m) != Code(prefix, padding, n)
  {
    CodeReadsBack(prefix, padding, m);
    CodeReadsBack(prefix, padding, n);
  }

  /** SequentialCodeGenerator: codes like prefix001, prefix002, ... */
  datatype SequentialGenerator = SequentialGenerator(prefix: string, padding: int, counter: int)
  {
    /** What the constructor and `setCounter` guarantee. */
    predicate Valid()
    {
      padding >= 1 && counter >= 1
    }

    /** `generate()`: the code for the current counter, and the generator with
        the counter advanced by exactly one. */
    function Generate(): (r: (string, SequentialGenerator))
      requires Valid()
      ensures StartsWith(r.0, prefix) && Value(r.0[|prefix|..]) == counter
      ensures |r.0| >= |prefix| + padding
      ensures AllDigits(r.0[|prefix|..])
      ensures |r.0| - |prefix| == PaddedWidth(counter, padding)
      ensures r.1.Valid() && r.1.counter == counter + 1
      ensures r.1.(counter := counter) == this
    {
      CodeReadsBack(prefix, padding, counter);
      (Code(prefix, padding, counter), this.(counter := counter + 1))
    }

    /** `setCounter($n)`: values below 1 are refused and leave the generator as it was. */
    function SetCounter(n: int): (r: Result<SequentialGenerator, Error>)
      ensures r.Failure? <==> n < 1
      ensures r.Failure? ==> r.error == InvalidArgument("Counter must be at least 1")
      ensures r.Success? ==> r.value.counter == n && r.value.(counter := counter) == this
      ensures r.Success? && padding >= 1 ==> r.value.Valid()
    {
      if n < 1 then Failure(InvalidArgument("Counter must be at least 1"))
      else Success(this.(counter := n))
    }

    /** The first `n` codes `generate()` emits, in order. */
    function Outputs(n: nat): (codes: seq<string>)
      requires Valid()
      ensures |codes| == n
      decreases n
    {
      if n == 0 then [] else [Generate().0] + Generate().1.Outputs(n - 1)
    }

    /** The `i`-th code the generator emits, as a stream. */
    function Stream(): (codes: nat -> string)
      requires Valid()
    {
      Shift(Coder(prefix, padding), counter)
    }
  }

  /** The constructor's defaults: no prefix, three digits, counting from 1. */
  const DefaultPrefix: string := ""
  const DefaultPadding: int := 3
  const DefaultStart: int := 1

  /** `new SequentialCodeGenerator($prefix, $padding, $startFrom)`: padding is
      checked first, then the start value. */
  function NewSequentialGenerator(prefix: string, padding: int, startFrom: int): (r: Result<SequentialGenerator, Error>)
    ensures r.Failure? <==> padding < 1 || startFrom < 1
    ensures padding < 1 ==> r == Failure(InvalidArgument("Padding must be at least 1"))
    ensures padding >= 1 && startFrom < 1 ==> r == Failure(InvalidArgument("Start from must be at least 1"))
    ensures r.Success? ==> r.value.Valid()
    ensures r.Success? ==> r.value.prefix == prefix && r.value.padding == padding && r.value.counter == startFrom
  {
    if padding < 1 then Failure(InvalidArgument("Padding must be at least 1"))
    else if startFrom < 1 then Failure(InvalidArgument("Start from must be at least 1"))
    else Success(SequentialGenerator(prefix, padding, startFrom))
  }

  // Iterate, Shift and Coder keep the decimal rendering behind a function
  // value, and the small lemmas that follow (IterateAt, ShiftAt, GenerateStep,
  // OutputsIterate, StreamShift, StreamApply) split each proof about the order
  // of the codes into steps that never unfold the rendering itself.

  /** The codes for the counters `from`, `from + 1`, ..., `from + n - 1`
      under the rendering `f`. */
  function Iterate(f: int -> string, from: int, n: nat): (codes: seq<string>)
    ensures |codes| == n
    decreases n
  {
    if n == 0 then [] else [f(from)] + Iterate(f, from + 1, n - 1)
  }

  /** The `i`-th element of an iteration is the rendering of `from + i`. */
  lemma {:induction false} IterateAt(f: int -> string, from: int, n: nat, i: nat)
    requires i < n
    ensures Iterate(f, from, n)[i] == f(from + i)
    decreases i
  {
    if i > 0 {
      IterateAt(f, from + 1, n - 1, i - 1);
    }
  }

  /** The stream `f(from)`, `f(from + 1)`, and so on. */
  function Shift(f: int -> string, from: int): (codes: nat -> string)
  {
    (i: nat) => f(from + i)
  }

  lemma ShiftAt(f: int -> string, from: int, i: nat)
    ensures Shift(f, from)(i) == f(from + i)
  {
  }

  /** The sequential rendering under one prefix and padding. A valid
      generator's counter is never negative; the `else` branch only makes the
      function total over `int`. */
  function Coder(prefix: string, padding: int): (f: int -> string)
  {
    (c: int) => if c >= 0 then Code(prefix, padding, c) else prefix
  }

  /** One `generate()` call emits the rendering of the counter and moves on to the next counter. */
  lemma GenerateStep(g: SequentialGenerator)
    requires g.Valid()
    ensures g.Generate().0 == Coder(g.prefix, g.padding)(g.counter)
    ensures g.Generate().1 == SequentialGenerator(g.prefix, g.padding, g.counter + 1)
  {
    var f := Coder(g.prefix, g.padding);
    assert f(g.counter) == Code(g.prefix, g.padding, g.counter);
  }

  /** `n` successive `generate()` calls emit the renderings of `n` successive counters. */
  lemma {:induction false} OutputsIterate(g: SequentialGenerator, n: nat)
    requires g.Valid()
    ensures g.Outputs(n) == Iterate(Coder(g.prefix, g.padding), g.counter, n)
    decreases n
  {
    if n > 0 {
      var g' := SequentialGenerator(g.prefix, g.padding, g.counter + 1);
      GenerateStep(g);
      OutputsIterate(g', n - 1);
    }
  }

  /** The `i`-th output of `generate()` is the code for counter + i. */
  lemma OutputAt(g: SequentialGenerator, n: nat, i: nat)
    requires g.Valid() && i < n
    ensures g.Outputs(n)[i] == Code(g.prefix, g.padding, g.counter + i)
  {
    var f := Coder(g.prefix, g.padding);
    OutputsIterate(g, n);
    IterateAt(f, g.counter, n, i);
    assert f(g.counter + i) == Code(g.prefix, g.padding, g.counter + i);
  }

  lemma OutputsFollowCounter(g: SequentialGenerator, n: nat)
    requires g.Valid()
    ensures forall i :: 0 <= i < n ==> g.Outputs(n)[i] == Code(g.prefix, g.padding, g.counter + i)
  {
    forall i | 0 <= i < n
      ensures g.Outputs(n)[i] == Code(g.prefix, g.padding, g.counter + i)
    {
      OutputAt(g, n, i);
    }
  }

  /** The stream the manager draws from is what `generate()` emits, call after call. */
  lemma StreamIsOutputs(g: SequentialGenerator, n: nat)
    requires g.Valid()
    ensures forall i :: 0 <= i < n ==> g.Stream()(i) == g.Outputs(n)[i]
  {
    forall i | 0 <= i < n
      ensures g.Stream()(i) == g.Outputs(n)[i]
    {
      StreamAt(g, n, i);
    }
  }

  lemma StreamAt(g: SequentialGenerator, n: nat, i: nat)
    requires g.Valid() && i < n
    ensures g.Stream()(i) == g.Outputs(n)[i]
  {
    StreamApply(g, i);
    OutputAt(g, n, i);
  }

  lemma StreamShift(g: SequentialGenerator, i: nat)
    requires g.Valid()
    ensures g.Stream()(i) == Coder(g.prefix, g.padding)(g.counter + i)
  {
    ShiftAt(Coder(g.prefix, g.padding), g.counter, i);
  }

  /** The `i`-th code of the stream is the code for counter + i. */
  lemma StreamApply(g: SequentialGenerator, i: nat)
    requires g.Valid()
    ensures g.Stream()(i) == Code(g.prefix, g.padding, g.counter + i)
  {
    var f := Coder(g.prefix, g.padding);
    StreamShift(g, i);
    assert f(g.counter + i) == Code(g.prefix, g.padding, g.counter + i);
  }

  /** Between two `setCounter` calls a sequential generator never repeats a code:
      reading the digits after the prefix gives back distinct counters. */
  lemma OutputsDistinct(g: SequentialGenerator, n: nat)
    requires g.Valid()
    ensures forall i, j :: 0 <= i < j < n ==> g.Outputs(n)[i] != g.Outputs(n)[j]
  {
    forall i, j | 0 <= i < j < n
      ensures g.Outputs(n)[i] != g.Outputs(n)[j]
    {
      OutputsDiffer(g, n, i, j);
    }
  }

  lemma OutputsDiffer(g: SequentialGenerator, n: nat, i: nat, j: nat)
    requires g.Valid() && i < j < n
    ensures g.Outputs(n)[i] != g.Outputs(n)[j]
  {
    var a, b := g.counter + i, g.counter + j;
    CodeInjective(g.prefix, g.padding, a, b);
    OutputAt(g, n, i);
    OutputAt(g, n, j);
  }

  /** Prefix "test", padding 3, default start: "test001" then "test002". */
  lemma SequentialExample()
    ensures NewSequentialGenerator("test", 3, DefaultStart).Success?
    ensures NewSequentialGenerator("test", 3, DefaultStart).value.Outputs(2) == ["test001", "test002"]
  {
    var g := NewSequentialGenerator("test", 3, DefaultStart).value;
    assert g.Generate().0 == "test001";
    assert g.Generate().1.Generate().0 == "test002";
  }

  /** `new SequentialCodeGenerator()`: the defaults are accepted, and the
      first two codes are "001" and "002". */
  lemma DefaultSequentialExample()
    ensures NewSequentialGenerator(DefaultPrefix, DefaultPadding, DefaultStart).Success?
    ensures NewSequentialGenerator(DefaultPrefix, DefaultPadding, DefaultStart).value.Outputs(2) == ["001", "002"]
  {
    FirstBareCodes(NewSequentialGenerator(DefaultPrefix, DefaultPadding, DefaultStart).value);
  }

  lemma FirstBareCodes(g: SequentialGenerator)
    requires g.Valid() && g.prefix == "" && g.padding == 3 && g.counter == 1
    ensures g.Outputs(2) == ["001", "002"]
  {
    FirstTwoOutputs(g);
    BareCode(1, "001");
    BareCode(2, "002");
  }

  /** Two `generate()` calls emit the codes of the counter and of its successor. */
  lemma FirstTwoOutputs(g: SequentialGenerator)
    requires g.Valid()
    ensures g.Outputs(2) == [Code(g.prefix, g.padding, g.counter), Code(g.prefix, g.padding, g.counter + 1)]
  {
    var f := Coder(g.prefix, g.padding);
    OutputsIterate(g, 2);
    IterateTwo(f, g.counter);
    assert f(g.counter) == Code(g.prefix, g.padding, g.counter);
    assert f(g.counter + 1) == Code(g.prefix, g.padding, g.counter + 1);
  }

  lemma IterateTwo(f: int -> string, from: int)
    ensures Iterate(f, from, 2) == [f(from), f(from + 1)]
  {
    assert Iterate(f, from + 1, 1) == [f(from + 1)];
  }

  /** The unprefixed three-digit codes of the first two counters. */
  lemma BareCode(n: nat, code: string)
    requires (n == 1 && code == "001") || (n == 2 && code == "002")
    ensures Code("", 3, n) == code
  {
    var d := NatToString(n);
    assert d == [DigitChar(n)];
    var r := PadLeft(d, 3, '0');
    assert |r| == 3 && r[2..] == d;
    assert r[0] == '0' && r[1] == '0' && r[2] == code[2];
    assert Code("", 3, n) == r;
    assert r == code;
  }

  /** The `n` consecutive characters from `lo` on. */
  function Span(lo: char, n: nat): (s: string)
    requires lo as int + n <= 128
    ensures |s| == n && forall k :: 0 <= k < n ==> s[k] as int == lo as int + k
  {
    seq(n, k requires 0 <= k < n => (lo as int + k) as char)
  }

  /** The default alphabet "abc...xyzABC...XYZ012...789". */
  const Alphanumeric: string := Span('a', 26) + Span('A', 26) + Span('0', 10)
  const DefaultLength: int := 6

  predicate IsAlphanumeric(c: char)
  {
    'a' <= c <= 'z' || 'A' <= c <= 'Z' || '0' <= c <= '9'
  }

  /** The default alphabet is exactly the 62 ASCII letters and digits. */
  lemma AlphanumericIsAlnum()
    ensures |Alphanumeric| == 62
    ensures forall c :: c in Alphanumeric <==> IsAlphanumeric(c)
  {
    forall c | IsAlphanumeric(c)
      ensures c in Alphanumeric
    {
      if 'a' <= c <= 'z' {
        assert Alphanumeric[c as int - 'a' as int] == c;
      } else if 'A' <= c <= 'Z' {
        assert Alphanumeric[26 + (c as int - 'A' as int)] == c;
      } else {
        assert Alphanumeric[52 + (c as int - '0' as int)] == c;
      }
    }
  }

  /** RandomCodeGenerator: `length` characters drawn from `characters`. */
  datatype RandomCodeGenerator = RandomCodeGenerator(length: int, characters: string)
  {
    /** What the constructor guarantees. */
    predicate Valid()
    {
      length >= 1 && !PhpEmpty(characters)
    }

    /** One index per character, each in the range `random_int(0, strlen - 1)` returns. */
    predicate DrawsFit(draws: seq<int>)
    {
      |draws| == length && forall k :: 0 <= k < |draws| ==> 0 <= draws[k] < |characters|
    }

    /** `generate()`, given the indices `random_int` returned: the k-th character
        of the code is the alphabet character at the k-th index. */
    function Generate(draws: seq<int>): (code: string)
      requires DrawsFit(draws)
      ensures |code| == length
      ensures forall k :: 0 <= k < |code| ==> code[k] == characters[draws[k]]
      ensures forall k :: 0 <= k < |code| ==> code[k] in characters
    {
      seq(|draws|, k requires 0 <= k < |draws| => characters[draws[k]])
    }
  }

  /** `new RandomCodeGenerator($length, $characters)`: the length is checked
      first; PHP's `empty` also refuses the one-character alphabet "0". */
  function NewRandomCodeGenerator(length: int, characters: string): (r: Result<RandomCodeGenerator, Error>)
    ensures r.Failure? <==> length < 1 || characters == "" || characters == "0"
    ensures length < 1 ==> r == Failure(InvalidArgument("Code length must be at least 1"))
    ensures length >= 1 && PhpEmpty(characters) ==> r == Failure(InvalidArgument("Characters cannot be empty"))
    ensures r.Success? ==> r.value.Valid() && r.value.length == length && r.value.characters == characters
  {
    if length < 1 then Failure(InvalidArgument("Code length must be at least 1"))
    else if PhpEmpty(characters) then Failure(InvalidArgument("Characters cannot be empty"))
    else Success(RandomCodeGenerator(length, characters))
  }

  /** A default random generator emits six letters or digits. */
  lemma DefaultRandomCodes(draws: seq<int>)
    requires NewRandomCodeGenerator(DefaultLength, Alphanumeric).Success?
    requires NewRandomCodeGenerator(DefaultLength, Alphanumeric).value.DrawsFit(draws)
    ensures var code := NewRandomCodeGenerator(DefaultLength, Alphanumeric).value.Generate(draws);
      |code| == 6 && forall k :: 0 <= k < 6 ==> IsAlphanumeric(code[k])
  {
    AlphanumericIsAlnum();
  }
}

=== FILE: lifecycle.dfy ===
/** Properties of the short-code lifecycle that relate several manager
    operations: round trips, the click-count invariant and the end-to-end
    scenarios the integration tests exercise. */
module Lifecycle {
  import opened Wrappers
  import opened Errors
  import opened Records
  import opened Storage
  import opened Validation
  import opened Generators
  import opened Manager

  /** Over a backend whose writes never fail, a valid URL is shortened exactly
      when one of the ten codes checked is free. */
  lemma ShortenSucceedsIffFreeCode<S(!new)>(
    w: Wiring<S>, st: State<S>, url: string, expiresAt: Option<Instant>, metadata: Metadata, now: Instant)
    requires Conforms(w.backend) && Reliable(w.backend)
    requires IsValid(w.validator, w.lib, url)
    ensures Shorten(w, st, url, expiresAt, metadata, now).result.Success? <==>
      exists k :: st.generated <= k < st.generated + MaxGenerationAttempts && !ViewOf(w, st).Exists(w.codes(k))
  {
    var o := Shorten(w, st, url, expiresAt, metadata, now);
    var g := GenerateUniqueCode(w, st.storage, st.generated);
    var drawn := st.generated + g.calls;
    if g.code.Success? {
      assert o == StoreFresh(w, st, Fresh(g.code.value, url, expiresAt, metadata, now), drawn);
      var k := drawn - 1;
      assert st.generated <= k < st.generated + MaxGenerationAttempts && !ViewOf(w, st).Exists(w.codes(k));
    } else {
      assert o.result.Failure?;
    }
  }

  /** `expand(shorten(u)) == u` while the new code has not expired, with or
      without click tracking. */
  lemma ShortenThenExpand<S(!new)>(
    w: Wiring<S>, st: State<S>, url: string, expiresAt: Option<Instant>, metadata: Metadata, now: Instant,
    later: Instant, trackClick: bool, client: ClientContext)
    requires Conforms(w.backend)
    requires Shorten(w, st, url, expiresAt, metadata, now).result.Success?
    requires expiresAt.None? || later <= expiresAt.value
    ensures var o := Shorten(w, st, url, expiresAt, metadata, now);
      && Exists(w, o.state, o.result.value, later)
      && Expand(w, o.state, o.result.value, trackClick, client, later).result == Success(url)
  {
    var o := Shorten(w, st, url, expiresAt, metadata, now);
    var code := o.result.value;
    assert ViewOf(w, o.state).Retrieve(code) == Some(Fresh(code, url, expiresAt, metadata, now));
  }

  /** Expired codes resolve like absent ones and are not reported as existing,
      yet their record and analytics stay readable. */
  lemma ExpiredAsymmetry<S(!new)>(
    w: Wiring<S>, st: State<S>, code: string, now: Instant, trackClick: bool, client: ClientContext)
    requires Conforms(w.backend)
    requires code in ViewOf(w, st).urls && ViewOf(w, st).urls[code].IsExpired(now)
    ensures Expand(w, st, code, trackClick, client, now) == Outcome(Failure(ShortCodeNotFound(code)), st)
    ensures !Exists(w, st, code, now)
    ensures GetUrlRecord(w, st, code) == Success(ViewOf(w, st).urls[code])
    ensures GetAnalytics(w, st, code).Success?
  {
  }

  /** Shortening with an expiry already past, then expanding, raises
      ShortCodeNotFound; getUrlRecord still returns the URL. */
  lemma ShortenExpiredThenExpand<S(!new)>(
    w: Wiring<S>, st: State<S>, url: string, expiry: Instant, metadata: Metadata, now: Instant,
    trackClick: bool, client: ClientContext)
    requires Conforms(w.backend)
    requires Shorten(w, st, url, Some(expiry), metadata, now).result.Success?
    requires expiry < now
    ensures var o := Shorten(w, st, url, Some(expiry), metadata, now);
      && Expand(w, o.state, o.result.value, trackClick, client, now).result == Failure(ShortCodeNotFound(o.result.value))
      && GetUrlRecord(w, o.state, o.result.value).Success?
      && GetUrlRecord(w, o.state, o.result.value).value.originalUrl == url
  {
    var o := Shorten(w, st, url, Some(expiry), metadata, now);
    assert ViewOf(w, o.state).Retrieve(o.result.value) == Some(Fresh(o.result.value, url, Some(expiry), metadata, now));
  }

  /** After a delete that reports success, the code no longer exists, its record
      is gone and deleting it again reports failure. */
  lemma DeleteThenGone<S(!new)>(w: Wiring<S>, st: State<S>, code: string, now: Instant)
    requires Conforms(w.backend)
    requires Delete(w, st, code).result == Success(true)
    ensures var st' := Delete(w, st, code).state;
      && !Exists(w, st', code, now)
      && GetUrlRecord(w, st', code) == Failure(ShortCodeNotFound(code))
      && Delete(w, st', code).result == Success(false)
  {
  }

  /** updateMetadata followed by getUrlRecord returns the new metadata, and the
      rest of the record as it was. */
  lemma MetadataRoundTrip<S(!new)>(w: Wiring<S>, st: State<S>, code: string, metadata: Metadata)
    requires Conforms(w.backend)
    requires code in ViewOf(w, st).urls && ViewOf(w, st).urls[code].shortCode == code
    requires UpdateMetadata(w, st, code, metadata).result == Success(true)
    ensures var st' := UpdateMetadata(w, st, code, metadata).state;
      && GetUrlRecord(w, st', code).Success?
      && GetUrlRecord(w, st', code).value.metadata == metadata
      && GetUrlRecord(w, st', code).value.(metadata := ViewOf(w, st).urls[code].metadata) == ViewOf(w, st).urls[code]
  {
  }

  /** The storage invariant behind the click counter: every record is filed
      under its own code, its click count is the number of clicks stored for it,
      and no clicks are stored for a code without a record. */
  ghost predicate Consistent(v: MemoryStorage)
  {
    && (forall c :: c in v.urls ==> v.urls[c].shortCode == c)
    && (forall c :: c in v.urls ==> v.urls[c].clickCount == |v.GetAnalytics(c)|)
    && (forall c :: c in v.analytics ==> c in v.urls)
  }

  lemma EmptyIsConsistent()
    ensures Consistent(Empty())
  {
  }

  /** The state-changing manager calls; the read-only ones cannot break the invariant. */
  datatype Command =
    | ShortenUrl(url: string, expiresAt: Option<Instant>, metadata: Metadata)
    | ExpandCode(code: string, trackClick: bool, client: ClientContext)
    | DeleteCode(code: string)
    | UpdateCodeMetadata(code: string, metadata: Metadata)

  /** A call and the time it is made at. */
  datatype Request = Request(command: Command, now: Instant)

  /** The state a call leaves behind, whether it returned or raised. */
  function Step<S(!new)>(w: Wiring<S>, st: State<S>, r: Request): State<S>
    requires Conforms(w.backend)
  {
    match r.command
    case ShortenUrl(url, expiresAt, metadata) => Shorten(w, st, url, expiresAt, metadata, r.now).state
    case ExpandCode(code, trackClick, client) => Expand(w, st, code, trackClick, client, r.now).state
    case DeleteCode(code) => Delete(w, st, code).state
    case UpdateCodeMetadata(code, metadata) => UpdateMetadata(w, st, code, metadata).state
  }

  /** The state after a sequence of calls. */
  function Run<S(!new)>(w: Wiring<S>, st: State<S>, rs: seq<Request>): State<S>
    requires Conforms(w.backend)
    decreases |rs|
  {
    if rs == [] then st else Run(w, Step(w, st, rs[0]), rs[1..])
  }

  lemma ShortenKeepsConsistent<S(!new)>(
    w: Wiring<S>, st: State<S>, url: string, expiresAt: Option<Instant>, metadata: Metadata, now: Instant)
    requires Conforms(w.backend) && Consistent(ViewOf(w, st))
    ensures Consistent(ViewOf(w, Shorten(w, st, url, expiresAt, metadata, now).state))
  {
    var o := Shorten(w, st, url, expiresAt, metadata, now);
    if o.result.Success? {
      var v := ViewOf(w, st);
      var v' := ViewOf(w, o.state);
      var code := o.result.value;
      assert code !in v.analytics;
      forall c | c in v'.urls
        ensures v'.urls[c].clickCount == |v'.GetAnalytics(c)|
      {
        if c != code {
          assert v'.urls[c] == v.urls[c];
        }
      }
    }
  }

  lemma ExpandKeepsConsistent<S(!new)>(
    w: Wiring<S>, st: State<S>, code: string, trackClick: bool, client: ClientContext, now: Instant)
    requires Conforms(w.backend) && Reliable(w.backend) && Consistent(ViewOf(w, st))
    ensures Consistent(ViewOf(w, Expand(w, st, code, trackClick, client, now).state))
  {
    var o := Expand(w, st, code, trackClick, client, now);
    var v := ViewOf(w, st);
    var v' := ViewOf(w, o.state);
    if Live(v, code, now) && trackClick {
      forall c | c in v'.urls
        ensures v'.urls[c].clickCount == |v'.GetAnalytics(c)|
      {
        if c != code {
          assert v'.Retrieve(c) == v.Retrieve(c);
        }
      }
    }
  }

  lemma DeleteKeepsConsistent<S(!new)>(w: Wiring<S>, st: State<S>, code: string)
    requires Conforms(w.backend) && Consistent(ViewOf(w, st))
    ensures Consistent(ViewOf(w, Delete(w, st, code).state))
  {
    var v := ViewOf(w, st);
    var v' := ViewOf(w, Delete(w, st, code).state);
    forall c | c in v'.urls
      ensures v'.urls[c].clickCount == |v'.GetAnalytics(c)|
    {
      assert v'.GetAnalytics(c) == v.GetAnalytics(c);
    }
  }

  lemma UpdateMetadataKeepsConsistent<S(!new)>(w: Wiring<S>, st: State<S>, code: string, metadata: Metadata)
    requires Conforms(w.backend) && Consistent(ViewOf(w, st))
    ensures Consistent(ViewOf(w, UpdateMetadata(w, st, code, metadata).state))
  {
    var o := UpdateMetadata(w, st, code, metadata);
    var v := ViewOf(w, st);
    var v' := ViewOf(w, o.state);
    if o.result.Success? && o.result.value {
      forall c | c in v'.urls
        ensures v'.urls[c].clickCount == |v'.GetAnalytics(c)| && v'.urls[c].shortCode == c
      {
        if c != code {
          assert v'.Retrieve(c) == v.Retrieve(c);
        }
      }
    }
  }

  /** Over a backend whose writes never fail, no sequence of manager calls
      breaks the invariant: click counts keep matching the stored clicks. */
  lemma {:induction false} RunKeepsConsistent<S(!new)>(w: Wiring<S>, st: State<S>, rs: seq<Request>)
    requires Conforms(w.backend) && Reliable(w.backend) && Consistent(ViewOf(w, st))
    ensures Consistent(ViewOf(w, Run(w, st, rs)))
    decreases |rs|
  {
    if rs != [] {
      var r := rs[0];
      match r.command {
        case ShortenUrl(url, expiresAt, metadata) => ShortenKeepsConsistent(w, st, url, expiresAt, metadata, r.now);
        case ExpandCode(code, trackClick, client) => ExpandKeepsConsistent(w, st, code, trackClick, client, r.now);
        case DeleteCode(code) => DeleteKeepsConsistent(w, st, code);
        case UpdateCodeMetadata(code, metadata) => UpdateMetadataKeepsConsistent(w, st, code, metadata);
      }
      RunKeepsConsistent(w, Step(w, st, r), rs[1..]);
    }
  }

  /** Over MemoryStorage, starting empty, after any sequence of manager calls
      the analytics of every stored code report as many total clicks as they
      list clicks. */
  lemma MemoryClickCountsMatch(
    validator: UrlValidator, lib: UrlLib, codes: nat -> string, rs: seq<Request>, code: string)
    ensures (MemoryConforms();
      var w := Wiring(Memory(), validator, lib, codes);
      var st := Run(w, State(Empty(), 0), rs);
      GetAnalytics(w, st, code).Success? ==>
        GetAnalytics(w, st, code).value.totalClicks == |GetAnalytics(w, st, code).value.clicks|)
  {
    var w := Wiring(Memory(), validator, lib, codes);
    MemoryConforms();
    EmptyIsConsistent();
    RunKeepsConsistent(w, State(Empty(), 0), rs);
  }

  /** The state after `n` tracked expansions of `code` at time `now`. */
  function ExpandTimes<S(!new)>(w: Wiring<S>, st: State<S>, code: string, n: nat, client: ClientContext, now: Instant): State<S>
    requires Conforms(w.backend)
    decreases n
  {
    if n == 0 then st else ExpandTimes(w, Expand(w, st, code, true, client, now).state, code, n - 1, client, now)
  }

  /** Each tracked expansion of a live code adds one click to its record and
      one to its analytics. */
  lemma {:induction false} ExpandTimesCounts<S(!new)>(
    w: Wiring<S>, st: State<S>, code: string, n: nat, client: ClientContext, now: Instant)
    requires Conforms(w.backend) && Reliable(w.backend)
    requires Live(ViewOf(w, st), code, now) && ViewOf(w, st).urls[code].shortCode == code
    ensures var v' := ViewOf(w, ExpandTimes(w, st, code, n, client, now));
      && Live(v', code, now) && v'.urls[code].shortCode == code
      && v'.urls[code].clickCount == ViewOf(w, st).urls[code].clickCount + n
      && |v'.GetAnalytics(code)| == |ViewOf(w, st).GetAnalytics(code)| + n
    decreases n
  {
    if n > 0 {
      var st1 := Expand(w, st, code, true, client, now).state;
      ExpandOnce(w, st, code, client, now);
      ExpandTimesCounts(w, st1, code, n - 1, client, now);
    }
  }

  /** One tracked expansion of a live code: one more click on the record and
      one more in its analytics, and the code stays live. */
  lemma ExpandOnce<S(!new)>(w: Wiring<S>, st: State<S>, code: string, client: ClientContext, now: Instant)
    requires Conforms(w.backend) && Reliable(w.backend)
    requires Live(ViewOf(w, st), code, now) && ViewOf(w, st).urls[code].shortCode == code
    ensures var v' := ViewOf(w, Expand(w, st, code, true, client, now).state);
      && Live(v', code, now) && v'.urls[code].shortCode == code
      && v'.urls[code].clickCount == ViewOf(w, st).urls[code].clickCount + 1
      && |v'.GetAnalytics(code)| == |ViewOf(w, st).GetAnalytics(code)| + 1
  {
  }

  /** Shortening a URL and expanding it `n` times with tracking leaves
      `total_clicks == n` and exactly `n` listed clicks. */
  lemma ClicksAfterExpands<S(!new)>(
    w: Wiring<S>, st: State<S>, url: string, metadata: Metadata, now: Instant, n: nat, client: ClientContext)
    requires Conforms(w.backend) && Reliable(w.backend) && Consistent(ViewOf(w, st))
    requires Shorten(w, st, url, None, metadata, now).result.Success?
    ensures var o := Shorten(w, st, url, None, metadata, now);
      var st' := ExpandTimes(w, o.state, o.result.value, n, client, now);
      && GetAnalytics(w, st', o.result.value).Success?
      && GetAnalytics(w, st', o.result.value).value.totalClicks == n
      && |GetAnalytics(w, st', o.result.value).value.clicks| == n
  {
    var o := Shorten(w, st, url, None, metadata, now);
    var code := o.result.value;
    ShortenKeepsConsistent(w, st, url, None, metadata, now);
    assert ViewOf(w, o.state).Retrieve(code) == Some(Fresh(code, url, None, metadata, now));
    ExpandTimesCounts(w, o.state, code, n, client, now);
  }

  /** Nothing resolves in a fresh MemoryStorage: every code is not found. */
  lemma NothingResolvesInitially(
    validator: UrlValidator, lib: UrlLib, codes: nat -> string, code: string, trackClick: bool,
    client: ClientContext, now: Instant)
    ensures (MemoryConforms();
      Expand(Wiring(Memory(), validator, lib, codes), State(Empty(), 0), code, trackClick, client, now).result
        == Failure(ShortCodeNotFound(code)))
  {
    MemoryConforms();
  }

  /** The integration scenario with a sequential generator (prefix "test",
      padding 3) over MemoryStorage: the first two shortened URLs get "test001"
      and "test002", and each code expands to its URL. */
  lemma SequentialScenario(validator: UrlValidator, lib: UrlLib, url1: string, url2: string, now: Instant)
    requires IsValid(validator, lib, url1) && IsValid(validator, lib, url2)
    ensures NewSequentialGenerator("test", 3, DefaultStart).Success?
    ensures (MemoryConforms();
      var w := Wiring(Memory(), validator, lib, NewSequentialGenerator("test", 3, DefaultStart).value.Stream());
      var o1 := Shorten(w, State(Empty(), 0), url1, None, map[], now);
      var o2 := Shorten(w, o1.state, url2, None, map[], now);
      && o1.result == Success("test001")
      && o2.result == Success("test002")
      && Expand(w, o2.state, "test001", false, NoClient, now).result == Success(url1)
      && Expand(w, o2.state, "test002", false, NoClient, now).result == Success(url2))
  {
    var g := NewSequentialGenerator("test", 3, DefaultStart).value;
    SequentialExample();
    StreamIsOutputs(g, 2);
    var w := Wiring(Memory(), validator, lib, g.Stream());
    MemoryConforms();
    var o1 := Shorten(w, State(Empty(), 0), url1, None, map[], now);
    assert w.codes(0) == "test001" && w.codes(1) == "test002";
    assert o1.result == Success("test001");
    var o2 := Shorten(w, o1.state, url2, None, map[], now);
    assert !ViewOf(w, o1.state).Exists("test002");
    assert o2.result == Success("test002");
  }

  /** The scenario with the default random generator over MemoryStorage: a
      shortened URL gets a six-character alphanumeric code that expands to it. */
  lemma RandomScenario(
    validator: UrlValidator, lib: UrlLib, draws: nat -> seq<int>, codes: nat -> string, url: string, now: Instant)
    requires forall k :: (RandomCodeGenerator(DefaultLength, Alphanumeric).DrawsFit(draws(k))
      && codes(k) == RandomCodeGenerator(DefaultLength, Alphanumeric).Generate(draws(k)))
    requires IsValid(validator, lib, url)
    ensures (MemoryConforms();
      var w := Wiring(Memory(), validator, lib, codes);
      var o := Shorten(w, State(Empty(), 0), url, None, map[], now);
      && o.result.Success?
      && |o.result.value| == 6
      && (forall k :: 0 <= k < 6 ==> IsAlphanumeric(o.result.value[k]))
      && Expand(w, o.state, o.result.value, true, NoClient, now).result == Success(url))
  {
    var w := Wiring(Memory(), validator, lib, codes);
    MemoryConforms();
    var o := Shorten(w, State(Empty(), 0), url, None, map[], now);
    assert o.result.Success?;
    DefaultRandomCodes(draws(o.state.generated - 1));
    ShortenThenExpand(w, State(Empty(), 0), url, None, map[], now, now, true, NoClient);
  }
}

=== FILE: manager.dfy ===
/** UrlShortener, the manager: shorten, expand, exists, delete, getAnalytics,
    getUrlRecord and updateMetadata over any storage backend. The generator is
    the stream of codes its successive `generate()` calls return, and the
    manager state counts how many of them have been drawn. The clock and the
    request's client details are parameters. */
module Manager {
  import opened Wrappers
  import opened Errors
  import opened Records
  import opened Storage
  import opened Validation

  /** At most this many candidate codes are checked for uniqueness. */
  const MaxGenerationAttempts: nat := 10

  /** What a request tells about its client; all optional. */
  datatype ClientContext = ClientContext(
    ipAddress: Option<string>,
    userAgent: Option<string>,
    referrer: Option<string>)

  /** Outside a request there is no client information. */
  const NoClient: ClientContext := ClientContext(None, None, None)

  /** The collaborators a UrlShortener is constructed with: the storage
      backend, the validator (with the PHP URL functions it calls) and the
      generator, as the stream of the codes it emits. */
  datatype Wiring<!S> = Wiring(
    backend: Backend<S>,
    validator: UrlValidator,
    lib: UrlLib,
    codes: nat -> string)

  /** The mutable part: the backend state and how many codes were drawn. */
  datatype State<S> = State(storage: S, generated: nat)

  /** What an operation returned or raised, and the state it left behind
      (an exception does not undo the writes made before it). */
  datatype Outcome<T, S> = Outcome(result: Result<T, Error>, state: State<S>)

  /** The storage contents `st` stands for. */
  function ViewOf<S>(w: Wiring<S>, st: State<S>): MemoryStorage
  {
    w.backend.view(st.storage)
  }

  /** A code `expand` resolves at `now`: stored and not expired. */
  predicate Live(v: MemoryStorage, code: string, now: Instant)
  {
    code in v.urls && !v.urls[code].IsExpired(now)
  }

  /** The click `trackClick` records for `code` at `now`. */
  function Click(code: string, client: ClientContext, now: Instant): (a: AnalyticsRecord)
    ensures a.shortCode == code && a.clickedAt == now && a.additionalData == map[]
    ensures a.ipAddress == client.ipAddress && a.userAgent == client.userAgent && a.referrer == client.referrer
  {
    AnalyticsRecord(code, now, client.ipAddress, client.userAgent, client.referrer, map[])
  }

  /** The record `shorten` stores: created now, no clicks yet. */
  function Fresh(code: string, url: string, expiresAt: Option<Instant>, metadata: Metadata, now: Instant): (r: UrlRecord)
    ensures r.shortCode == code && r.originalUrl == url && r.createdAt == now
    ensures r.expiresAt == expiresAt && r.clickCount == 0 && r.metadata == metadata
  {
    UrlRecord(code, url, now, expiresAt, 0, metadata)
  }

  /** A run of the generation loop: the code found, or the exhaustion error,
      and how many times `generate()` was called. */
  datatype Generated = Generated(code: Result<string, Error>, calls: nat)

  /** The `do ... while` loop of `generateUniqueCode`, entered after `attempts`
      earlier passes, drawing the stream from position `next`: draw a code,
      count the attempt, give up once the count passes the maximum, otherwise
      try again while the backend already holds the code. */
  function FindUnique<S(!new)>(w: Wiring<S>, s: S, next: nat, attempts: nat): (g: Generated)
    requires Conforms(w.backend)
    requires attempts <= MaxGenerationAttempts
    ensures 1 <= g.calls <= MaxGenerationAttempts + 1 - attempts
    ensures forall k :: next <= k < next + g.calls - 1 ==> w.backend.view(s).Exists(w.codes(k))
    ensures g.code.Success? ==>
      && attempts + g.calls <= MaxGenerationAttempts
      && g.code.value == w.codes(next + g.calls - 1)
      && !w.backend.view(s).Exists(g.code.value)
    ensures g.code.Failure? ==>
      g.code.error == GenerationExhausted && attempts + g.calls == MaxGenerationAttempts + 1
    decreases MaxGenerationAttempts - attempts
  {
    var code := w.codes(next);
    if attempts + 1 > MaxGenerationAttempts then Generated(Failure(GenerationExhausted), 1)
    else if w.backend.contains(s, code) then
      var rest := FindUnique(w, s, next + 1, attempts + 1);
      Generated(rest.code, rest.calls + 1)
    else Generated(Success(code), 1)
  }

  /** `generateUniqueCode()`: at most ten uniqueness checks; the eleventh
      generated code is never checked, the loop raises instead. */
  function GenerateUniqueCode<S(!new)>(w: Wiring<S>, s: S, next: nat): (g: Generated)
    requires Conforms(w.backend)
    ensures 1 <= g.calls <= MaxGenerationAttempts + 1
    ensures forall k :: next <= k < next + g.calls - 1 ==> w.backend.view(s).Exists(w.codes(k))
    ensures g.code.Success? ==>
      g.calls <= MaxGenerationAttempts && g.code.value == w.codes(next + g.calls - 1) && !w.backend.view(s).Exists(g.code.value)
    ensures g.code.Failure? <==> g.calls == MaxGenerationAttempts + 1
    ensures g.code.Failure? ==> g.code.error == GenerationExhausted
  {
    FindUnique(w, s, next, 0)
  }

  /** `shorten($url, $expiresAt, $metadata)` at time `now`. */
  function Shorten<S(!new)>(w: Wiring<S>, st: State<S>, url: string, expiresAt: Option<Instant>, metadata: Metadata, now: Instant)
    : (o: Outcome<string, S>)
    requires Conforms(w.backend)
    // a rejected URL raises before anything happens
    ensures !IsValid(w.validator, w.lib, url) ==> o == Outcome(Failure(InvalidUrl(url)), st)
    // otherwise between one and eleven codes are drawn
    ensures IsValid(w.validator, w.lib, url) ==>
      st.generated < o.state.generated <= st.generated + MaxGenerationAttempts + 1
    // every failure leaves the stored contents as they were
    ensures o.result.Failure? ==> ViewOf(w, o.state) == ViewOf(w, st)
    // exhaustion: all ten checked codes were taken
    ensures o.result == Failure(GenerationExhausted) ==>
      && o.state.generated == st.generated + MaxGenerationAttempts + 1
      && forall k :: st.generated <= k < st.generated + MaxGenerationAttempts ==> ViewOf(w, st).Exists(w.codes(k))
    // success: the first free code among those drawn, now holding a fresh record
    ensures o.result.Success? ==>
      && IsValid(w.validator, w.lib, url)
      && o.state.generated <= st.generated + MaxGenerationAttempts
      && o.result.value == w.codes(o.state.generated - 1)
      && !ViewOf(w, st).Exists(o.result.value)
      && (forall k :: st.generated <= k < o.state.generated - 1 ==> ViewOf(w, st).Exists(w.codes(k)))
      && ViewOf(w, o.state) == ViewOf(w, st).Store(Fresh(o.result.value, url, expiresAt, metadata, now)).0
  {
    if !IsValid(w.validator, w.lib, url) then Outcome(Failure(InvalidUrl(url)), st)
    else
      var g := GenerateUniqueCode(w, st.storage, st.generated);
      var drawn := st.generated + g.calls;
      match g.code
      case Failure(e) => Outcome(Failure(e), State(st.storage, drawn))
      case Success(code) =>
        assert code == w.codes(drawn - 1);
        StoreFresh(w, st, Fresh(code, url, expiresAt, metadata, now), drawn)
  }

  /** The write that ends a `shorten`: the record is stored, and a store that
      reports failure becomes the storage error with the contents left as they were. */
  function StoreFresh<S(!new)>(w: Wiring<S>, st: State<S>, r: UrlRecord, drawn: nat): (o: Outcome<string, S>)
    requires Conforms(w.backend)
    ensures o.state.generated == drawn
    ensures o.result.Success? ==> o.result.value == r.shortCode && ViewOf(w, o.state) == ViewOf(w, st).Store(r).0
    ensures o.result.Failure? ==> o.result.error == StorageFailure && ViewOf(w, o.state) == ViewOf(w, st)
    ensures Reliable(w.backend) ==> o.result.Success?
  {
    var (s', ok) := w.backend.store(st.storage, r);
    if ok then Outcome(Success(r.shortCode), State(s', drawn))
    else Outcome(Failure(StorageFailure), State(s', drawn))
  }

  /** `trackClick($record)`: store the record with one more click (keyed by the
      record's own code), then append a click for that code. Both success flags
      are ignored. */
  function TrackClick<S(!new)>(w: Wiring<S>, s: S, rec: UrlRecord, client: ClientContext, now: Instant): (s': S)
    requires Conforms(w.backend)
    ensures Reliable(w.backend) ==>
      w.backend.view(s') == w.backend.view(s).Store(rec.IncrementClickCount()).0.StoreAnalytics(Click(rec.shortCode, client, now)).0
    ensures forall c :: c != rec.shortCode ==>
      w.backend.view(s').Retrieve(c) == w.backend.view(s).Retrieve(c)
      && w.backend.view(s').GetAnalytics(c) == w.backend.view(s).GetAnalytics(c)
  {
    var (s1, _) := w.backend.store(s, rec.WithClickCount(rec.clickCount + 1));
    var (s2, _) := w.backend.storeAnalytics(s1, Click(rec.shortCode, client, now));
    s2
  }

  /** `expand($code, $trackClick)` at time `now`, for a request from `client`. */
  function Expand<S(!new)>(w: Wiring<S>, st: State<S>, code: string, trackClick: bool, client: ClientContext, now: Instant)
    : (o: Outcome<string, S>)
    requires Conforms(w.backend)
    ensures o.state.generated == st.generated
    // absent and expired codes are indistinguishable, and nothing changes
    ensures !Live(ViewOf(w, st), code, now) ==> o == Outcome(Failure(ShortCodeNotFound(code)), st)
    ensures Live(ViewOf(w, st), code, now) ==> o.result == Success(ViewOf(w, st).urls[code].originalUrl)
    ensures !trackClick ==> o.state == st
    // tracking touches only the record's own code ...
    ensures forall c :: Live(ViewOf(w, st), code, now) && c != ViewOf(w, st).urls[code].shortCode ==>
      ViewOf(w, o.state).Retrieve(c) == ViewOf(w, st).Retrieve(c)
      && ViewOf(w, o.state).GetAnalytics(c) == ViewOf(w, st).GetAnalytics(c)
    // ... where it adds one click to the record and one click record
    ensures Live(ViewOf(w, st), code, now) && trackClick && Reliable(w.backend) ==>
      var rec := ViewOf(w, st).urls[code];
      && ViewOf(w, o.state).urls == ViewOf(w, st).urls[rec.shortCode := rec.IncrementClickCount()]
      && ViewOf(w, o.state).GetAnalytics(rec.shortCode) == ViewOf(w, st).GetAnalytics(rec.shortCode) + [Click(rec.shortCode, client, now)]
  {
    match w.backend.retrieve(st.storage, code)
    case None => Outcome(Failure(ShortCodeNotFound(code)), st)
    case Some(rec) =>
      if rec.IsExpired(now) then Outcome(Failure(ShortCodeNotFound(code)), st)
      else if trackClick then Outcome(Success(rec.originalUrl), State(TrackClick(w, st.storage, rec, client, now), st.generated))
      else Outcome(Success(rec.originalUrl), st)
  }

  /** `exists($code)`: a record is stored and has not expired at `now`. */
  predicate Exists<S(!new)>(w: Wiring<S>, st: State<S>, code: string, now: Instant)
    requires Conforms(w.backend)
    ensures Exists(w, st, code, now) <==> Live(ViewOf(w, st), code, now)
  {
    match w.backend.retrieve(st.storage, code)
    case None => false
    case Some(rec) => !rec.IsExpired(now)
  }

  /** `delete($code)`: passed straight to the backend, expired or not. */
  function Delete<S(!new)>(w: Wiring<S>, st: State<S>, code: string): (o: Outcome<bool, S>)
    requires Conforms(w.backend)
    ensures o.result.Success? && o.state.generated == st.generated
    ensures o.result.value ==> code in ViewOf(w, st).urls
    ensures ViewOf(w, o.state) == if o.result.value then ViewOf(w, st).Delete(code).0 else ViewOf(w, st)
    ensures Reliable(w.backend) ==> (o.result.value <==> code in ViewOf(w, st).urls)
  {
    var (s', ok) := w.backend.delete(st.storage, code);
    Outcome(Success(ok), State(s', st.generated))
  }

  /** The array `getAnalytics` returns. The record-derived entries are null
      (here `None`) if the record vanished between the backend's `exists` and
      `retrieve` calls. */
  datatype AnalyticsReport = AnalyticsReport(
    shortCode: string,
    originalUrl: Option<string>,
    createdAt: Option<Instant>,
    expiresAt: Option<Instant>,
    totalClicks: int,
    clicks: seq<AnalyticsRecord>,
    metadata: Metadata)

  /** `getAnalytics($code)`: raises only for an absent code; expiry is not checked. */
  function GetAnalytics<S(!new)>(w: Wiring<S>, st: State<S>, code: string): (r: Result<AnalyticsReport, Error>)
    requires Conforms(w.backend)
    ensures r.Failure? <==> code !in ViewOf(w, st).urls
    ensures r.Failure? ==> r.error == ShortCodeNotFound(code)
    ensures r.Success? ==>
      var rec := ViewOf(w, st).urls[code];
      && r.value.shortCode == code
      && r.value.originalUrl == Some(rec.originalUrl)
      && r.value.createdAt == Some(rec.createdAt)
      && r.value.expiresAt == rec.expiresAt
      && r.value.totalClicks == rec.clickCount
      && r.value.clicks == ViewOf(w, st).GetAnalytics(code)
      && r.value.metadata == rec.metadata
  {
    if !w.backend.contains(st.storage, code) then Failure(ShortCodeNotFound(code))
    else
      var clicks := w.backend.getAnalytics(st.storage, code);
      var rec := w.backend.retrieve(st.storage, code);
      Success(AnalyticsReport(
        code,
        rec.Map((x: UrlRecord) => x.originalUrl),
        rec.Map((x: UrlRecord) => x.createdAt),
        match rec case Some(x) => x.expiresAt case None => None,
        match rec case Some(x) => x.clickCount case None => 0,
        clicks,
        match rec case Some(x) => x.metadata case None => map[]))
  }

  /** `getUrlRecord($code)`: the stored record, expired or not. */
  function GetUrlRecord<S(!new)>(w: Wiring<S>, st: State<S>, code: string): (r: Result<UrlRecord, Error>)
    requires Conforms(w.backend)
    ensures r.Failure? <==> code !in ViewOf(w, st).urls
    ensures r.Failure? ==> r.error == ShortCodeNotFound(code)
    ensures r.Success? ==> r.value == ViewOf(w, st).urls[code]
  {
    match w.backend.retrieve(st.storage, code)
    case None => Failure(ShortCodeNotFound(code))
    case Some(rec) => Success(rec)
  }

  /** `updateMetadata($code, $metadata)`: replaces the metadata of a stored
      record and reports the backend's success flag. */
  function UpdateMetadata<S(!new)>(w: Wiring<S>, st: State<S>, code: string, metadata: Metadata): (o: Outcome<bool, S>)
    requires Conforms(w.backend)
    ensures o.state.generated == st.generated
    ensures code !in ViewOf(w, st).urls ==> o == Outcome(Failure(ShortCodeNotFound(code)), st)
    ensures code in ViewOf(w, st).urls ==> o.result.Success?
    ensures o.result.Success? ==>
      var rec := ViewOf(w, st).urls[code];
      ViewOf(w, o.state) == if o.result.value then ViewOf(w, st).Store(rec.WithMetadata(metadata)).0 else ViewOf(w, st)
    ensures o.result.Success? && Reliable(w.backend) ==> o.result.value
  {
    match w.backend.retrieve(st.storage, code)
    case None => Outcome(Failure(ShortCodeNotFound(code)), st)
    case Some(rec) =>
      var (s', ok) := w.backend.store(st.storage, rec.WithMetadata(metadata));
      Outcome(Success(ok), State(s', st.generated))
  }
}

=== FILE: records.dfy ===
/** The two value records of the library, UrlRecord and AnalyticsRecord, with
    their replace-on-write helpers, the expiry test and the array forms used by
    the file and database backends. */
module Records {
  import opened Wrappers
  import opened Errors

  /** A point in time (DateTimeImmutable), in microseconds since the epoch. */
  type Instant = int

  const MicrosPerSecond: int := 1_000_000

  /** The whole-second count a 'Y-m-d H:i:s' rendering of `t` carries. The
      rendering itself is not modelled: a serialized timestamp is this count. */
  function FormatSeconds(t: Instant): int
  {
    t / MicrosPerSecond
  }

  /** The instant a 'Y-m-d H:i:s' string denoting `seconds` parses to. */
  function ParseSeconds(seconds: int): Instant
  {
    seconds * MicrosPerSecond
  }

  /** `t` with its sub-second part dropped. */
  function TruncateToSecond(t: Instant): (r: Instant)
    ensures r <= t < r + MicrosPerSecond
    ensures r % MicrosPerSecond == 0
  {
    ParseSeconds(FormatSeconds(t))
  }

  /** The JSON-like values that metadata and additional data hold; the library
      never looks inside them. */
  datatype MetaValue =
    | Null
    | Bool(b: bool)
    | Int(i: int)
    | Str(s: string)
    | List(items: seq<MetaValue>)
    | Object(fields: map<string, MetaValue>)

  type Metadata = map<string, MetaValue>

  /** A short code and the URL it stands for. */
  datatype UrlRecord = UrlRecord(
    shortCode: string,
    originalUrl: string,
    createdAt: Instant,
    expiresAt: Option<Instant>,
    clickCount: int,
    metadata: Metadata)
  {
    /** A copy with the click count replaced; every other field is kept. */
    function WithClickCount(n: int): (r: UrlRecord)
      ensures r.clickCount == n
      ensures r.(clickCount := clickCount) == this
    {
      this.(clickCount := n)
    }

    /** A copy with the metadata replaced; every other field is kept. */
    function WithMetadata(m: Metadata): (r: UrlRecord)
      ensures r.metadata == m
      ensures r.(metadata := metadata) == this
    {
      this.(metadata := m)
    }

    /** The record after `incrementClickCount()`: one more click, nothing else changed. */
    function IncrementClickCount(): (r: UrlRecord)
      ensures r.clickCount == clickCount + 1
      ensures r.WithClickCount(clickCount) == this
    {
      WithClickCount(clickCount + 1)
    }

    /** True when the record has an expiry strictly earlier than `now`. */
    predicate IsExpired(now: Instant)
    {
      match expiresAt
      case None => false
      case Some(e) => now > e
    }
  }

  /** `new UrlRecord($code, $url, $createdAt)`: no expiry, no clicks, no metadata. */
  function NewUrlRecord(code: string, url: string, createdAt: Instant): (r: UrlRecord)
    ensures r.shortCode == code && r.originalUrl == url && r.createdAt == createdAt
    ensures r.expiresAt == None && r.clickCount == 0 && r.metadata == map[]
    ensures forall now :: !r.IsExpired(now)
  {
    UrlRecord(code, url, createdAt, None, 0, map[])
  }

  /** A record without expiry never expires; one with an expiry is live up to
      and including that instant and expired at every later one. */
  lemma ExpiryBoundary(r: UrlRecord, now: Instant)
    ensures r.expiresAt.None? ==> !r.IsExpired(now)
    ensures r.expiresAt.Some? ==> (r.IsExpired(now) <==> r.expiresAt.value < now)
    ensures r.expiresAt.Some? ==> !r.IsExpired(r.expiresAt.value)
  {
  }

  /** Once expired, a record stays expired as time moves on. */
  lemma ExpiryIsMonotone(r: UrlRecord, t1: Instant, t2: Instant)
    requires t1 <= t2 && r.IsExpired(t1)
    ensures r.IsExpired(t2)
  {
  }

  /** The array a UrlRecord serializes to. A `None` field is a key that is
      missing or null; timestamps are whole-second counts. */
  datatype UrlRow = UrlRow(
    shortCode: Option<string>,
    originalUrl: Option<string>,
    createdAt: Option<int>,
    expiresAt: Option<int>,
    clickCount: Option<int>,
    metadata: Option<Metadata>)

  /** `UrlRecord::toArray()`: every key set, expires_at null when there is no expiry. */
  function UrlToRow(r: UrlRecord): (row: UrlRow)
    ensures row.shortCode == Some(r.shortCode) && row.originalUrl == Some(r.originalUrl)
    ensures row.createdAt == Some(FormatSeconds(r.createdAt))
    ensures row.expiresAt.Some? <==> r.expiresAt.Some?
    ensures r.expiresAt.Some? ==> row.expiresAt.value == FormatSeconds(r.expiresAt.value)
    ensures row.clickCount == Some(r.clickCount) && row.metadata == Some(r.metadata)
  {
    UrlRow(Some(r.shortCode), Some(r.originalUrl), Some(FormatSeconds(r.createdAt)),
      r.expiresAt.Map(FormatSeconds), Some(r.clickCount), Some(r.metadata))
  }

  /** `UrlRecord::fromArray()`: the three required keys must be present (the
      strictly typed constructor raises a TypeError otherwise); a missing click
      count reads as 0, missing metadata as empty, missing expiry as none. */
  function UrlFromRow(row: UrlRow): (r: Result<UrlRecord, Error>)
    ensures r.Failure? <==> row.shortCode.None? || row.originalUrl.None? || row.createdAt.None?
    ensures r.Failure? ==> r.error == MalformedRow
    ensures r.Success? ==> r.value.shortCode == row.shortCode.value && r.value.originalUrl == row.originalUrl.value
    ensures r.Success? ==> (r.value.expiresAt.None? <==> row.expiresAt.None?)
    ensures r.Success? && row.clickCount.None? ==> r.value.clickCount == 0
    ensures r.Success? && row.metadata.None? ==> r.value.metadata == map[]
    ensures r.Success? ==> TruncateToSecond(r.value.createdAt) == r.value.createdAt
    // a present key reads as the value it holds
    ensures r.Success? ==> r.value.createdAt == ParseSeconds(row.createdAt.value)
    ensures r.Success? ==> r.value.expiresAt == row.expiresAt.Map(ParseSeconds)
    ensures r.Success? && row.clickCount.Some? ==> r.value.clickCount == row.clickCount.value
    ensures r.Success? && row.metadata.Some? ==> r.value.metadata == row.metadata.value
  {
    if row.shortCode.None? || row.originalUrl.None? || row.createdAt.None? then Failure(MalformedRow)
    else
      Success(UrlRecord(
        row.shortCode.value,
        row.originalUrl.value,
        ParseSeconds(row.createdAt.value),
        row.expiresAt.Map(ParseSeconds),
        row.clickCount.GetOr(0),
        row.metadata.GetOr(map[])))
  }

  /** Serializing and reading back keeps every field, timestamps cut to whole seconds. */
  lemma UrlRowRoundTrip(r: UrlRecord)
    ensures UrlFromRow(UrlToRow(r)) == Success(r.(
      createdAt := TruncateToSecond(r.createdAt),
      expiresAt := r.expiresAt.Map(TruncateToSecond)))
  {
  }

  /** One recorded click. */
  datatype AnalyticsRecord = AnalyticsRecord(
    shortCode: string,
    clickedAt: Instant,
    ipAddress: Option<string>,
    userAgent: Option<string>,
    referrer: Option<string>,
    additionalData: Metadata)

  /** `new AnalyticsRecord($code, $clickedAt)`: no client details, no additional data. */
  function NewAnalyticsRecord(code: string, clickedAt: Instant): (a: AnalyticsRecord)
    ensures a.shortCode == code && a.clickedAt == clickedAt
    ensures a.ipAddress == None && a.userAgent == None && a.referrer == None
    ensures a.additionalData == map[]
  {
    AnalyticsRecord(code, clickedAt, None, None, None, map[])
  }

  /** The array an AnalyticsRecord serializes to; `None` is a missing or null key. */
  datatype AnalyticsRow = AnalyticsRow(
    shortCode: Option<string>,
    clickedAt: Option<int>,
    ipAddress: Option<string>,
    userAgent: Option<string>,
    referrer: Option<string>,
    additionalData: Option<Metadata>)

  /** `AnalyticsRecord::toArray()`. */
  function AnalyticsToRow(a: AnalyticsRecord): (row: AnalyticsRow)
    ensures row.shortCode == Some(a.shortCode) && row.clickedAt == Some(FormatSeconds(a.clickedAt))
    ensures row.ipAddress == a.ipAddress && row.userAgent == a.userAgent && row.referrer == a.referrer
    ensures row.additionalData == Some(a.additionalData)
  {
    AnalyticsRow(Some(a.shortCode), Some(FormatSeconds(a.clickedAt)),
      a.ipAddress, a.userAgent, a.referrer, Some(a.additionalData))
  }

  /** `AnalyticsRecord::fromArray()`: short_code and clicked_at are required;
      missing client details read as null, missing additional data as empty. */
  function AnalyticsFromRow(row: AnalyticsRow): (r: Result<AnalyticsRecord, Error>)
    ensures r.Failure? <==> row.shortCode.None? || row.clickedAt.None?
    ensures r.Failure? ==> r.error == MalformedRow
    ensures r.Success? ==> r.value.shortCode == row.shortCode.value
    ensures r.Success? ==> r.value.ipAddress == row.ipAddress && r.value.userAgent == row.userAgent
    ensures r.Success? ==> r.value.referrer == row.referrer
    ensures r.Success? && row.additionalData.None? ==> r.value.additionalData == map[]
    // a present key reads as the value it holds
    ensures r.Success? ==> r.value.clickedAt == ParseSeconds(row.clickedAt.value)
    ensures r.Success? && row.additionalData.Some? ==> r.value.additionalData == row.additionalData.value
  {
    if row.shortCode.None? || row.clickedAt.None? then Failure(MalformedRow)
    else
      Success(AnalyticsRecord(
        row.shortCode.value,
        ParseSeconds(row.clickedAt.value),
        row.ipAddress,
        row.userAgent,
        row.referrer,
        row.additionalData.GetOr(map[])))
  }

  /** Serializing and reading back keeps every field, the click time cut to whole seconds. */
  lemma AnalyticsRowRoundTrip(a: AnalyticsRecord)
    ensures AnalyticsFromRow(AnalyticsToRow(a)) == Success(a.(clickedAt := TruncateToSecond(a.clickedAt)))
  {
  }
}

=== FILE: storage.dfy ===
/** The storage contract (StorageInterface) and its reference implementation,
    MemoryStorage. A backend is any state type `S` with the six interface
    operations as total functions and a `view` of its contents as a
    MemoryStorage; it conforms when each operation does to the view what
    MemoryStorage does to itself. */
module Storage {
  import opened Wrappers
  import opened Records

  /** MemoryStorage: one map from code to record, one from code to its clicks
      in insertion order. */
  datatype MemoryStorage = MemoryStorage(
    urls: map<string, UrlRecord>,
    analytics: map<string, seq<AnalyticsRecord>>)
  {
    /** Upsert by short code; always reports success. */
    function Store(r: UrlRecord): (res: (MemoryStorage, bool))
      ensures res.1
      ensures res.0.Retrieve(r.shortCode) == Some(r)
      ensures forall c :: c != r.shortCode ==> res.0.Retrieve(c) == Retrieve(c)
      ensures res.0.urls.Keys == urls.Keys + {r.shortCode}
      ensures res.0.analytics == analytics
    {
      (this.(urls := urls[r.shortCode := r]), true)
    }

    /** Exact-key lookup, with no expiry filtering. */
    function Retrieve(code: string): (r: Option<UrlRecord>)
      ensures r.Some? <==> code in urls
      ensures r.Some? ==> r.value == urls[code]
    {
      if code in urls then Some(urls[code]) else None
    }

    /** True exactly when a record is stored under `code`. */
    predicate Exists(code: string)
      ensures Exists(code) <==> Retrieve(code).Some?
    {
      code in urls
    }

    /** Removes the record and, with it, every click of the code. Reports
        whether there was a record; without one nothing changes, not even
        clicks stored under the code. */
    function Delete(code: string): (res: (MemoryStorage, bool))
      ensures res.1 <==> code in urls
      ensures res.1 ==> res.0.urls == urls - {code} && res.0.analytics == analytics - {code}
      ensures !res.1 ==> res.0 == this
    {
      if code in urls then (MemoryStorage(urls - {code}, analytics - {code}), true)
      else (this, false)
    }

    /** Appends a click to the end of its code's list, whether or not a record
        exists for the code; always reports success. */
    function StoreAnalytics(a: AnalyticsRecord): (res: (MemoryStorage, bool))
      ensures res.1
      ensures res.0.GetAnalytics(a.shortCode) == GetAnalytics(a.shortCode) + [a]
      ensures forall c :: c != a.shortCode ==> res.0.GetAnalytics(c) == GetAnalytics(c)
      ensures res.0.analytics.Keys == analytics.Keys + {a.shortCode}
      ensures res.0.urls == urls
    {
      var clicks := if a.shortCode in analytics then analytics[a.shortCode] else [];
      (this.(analytics := analytics[a.shortCode := clicks + [a]]), true)
    }

    /** The clicks of `code` in insertion order; empty for an unknown code. */
    function GetAnalytics(code: string): (r: seq<AnalyticsRecord>)
      ensures code !in analytics ==> r == []
      ensures code in analytics ==> r == analytics[code]
    {
      if code in analytics then analytics[code] else []
    }
  }

  /** A fresh MemoryStorage, and the state `clear()` leaves behind. */
  function Empty(): (m: MemoryStorage)
    ensures forall c :: m.Retrieve(c) == None && m.GetAnalytics(c) == []
  {
    MemoryStorage(map[], map[])
  }

  /** `clear()`: both maps emptied, whatever they held. */
  function Clear(m: MemoryStorage): (r: MemoryStorage)
    ensures r.urls == map[] && r.analytics == map[]
  {
    Empty()
  }

  /** A record that was deleted can no longer be retrieved, and neither can its clicks. */
  lemma RetrieveAfterDelete(m: MemoryStorage, code: string)
    ensures m.Delete(code).0.Retrieve(code) == None
    ensures m.Delete(code).0.GetAnalytics(code) == (if m.Exists(code) then [] else m.GetAnalytics(code))
  {
  }

  /** Storing and then retrieving a record returns it; deleting it afterwards succeeds. */
  lemma StoreThenDelete(m: MemoryStorage, r: UrlRecord)
    ensures m.Store(r).0.Delete(r.shortCode).1
    ensures m.Store(r).0.Delete(r.shortCode).0.urls == m.urls - {r.shortCode}
  {
  }

  /** The operations of StorageInterface over a backend state `S` (`contains` is
      `exists`, a reserved word here), plus `view`,
      which reads the state as the MemoryStorage it stands for. */
  datatype Backend<!S> = Backend(
    view: S -> MemoryStorage,
    store: (S, UrlRecord) -> (S, bool),
    retrieve: (S, string) -> Option<UrlRecord>,
    contains: (S, string) -> bool,
    delete: (S, string) -> (S, bool),
    storeAnalytics: (S, AnalyticsRecord) -> (S, bool),
    getAnalytics: (S, string) -> seq<AnalyticsRecord>)

  /** The storage contract: reads agree with the view; a write that reports
      success did to the view what MemoryStorage would do, and one that reports
      failure left the view as it was (no partial writes). */
  ghost predicate Conforms<S(!new)>(b: Backend<S>)
  {
    && (forall s, r {:trigger b.store(s, r)} :: b.view(b.store(s, r).0) == if b.store(s, r).1 then b.view(s).Store(r).0 else b.view(s))
    && (forall s, c {:trigger b.retrieve(s, c)} :: b.retrieve(s, c) == b.view(s).Retrieve(c))
    && (forall s, c {:trigger b.contains(s, c)} :: b.contains(s, c) == b.view(s).Exists(c))
    && (forall s, c {:trigger b.delete(s, c)} :: b.view(b.delete(s, c).0) == if b.delete(s, c).1 then b.view(s).Delete(c).0 else b.view(s))
    && (forall s, c {:trigger b.delete(s, c)} :: b.delete(s, c).1 ==> b.view(s).Exists(c))
    && (forall s, a {:trigger b.storeAnalytics(s, a)} :: b.view(b.storeAnalytics(s, a).0) ==
          if b.storeAnalytics(s, a).1 then b.view(s).StoreAnalytics(a).0 else b.view(s))
    && (forall s, c {:trigger b.getAnalytics(s, c)} :: b.getAnalytics(s, c) == b.view(s).GetAnalytics(c))
  }

  /** A backend whose writes never fail: stores always succeed and a delete
      succeeds whenever there is something to delete. */
  ghost predicate Reliable<S(!new)>(b: Backend<S>)
  {
    && (forall s, r {:trigger b.store(s, r)} :: b.store(s, r).1)
    && (forall s, a {:trigger b.storeAnalytics(s, a)} :: b.storeAnalytics(s, a).1)
    && (forall s, c {:trigger b.delete(s, c)} :: b.delete(s, c).1 == b.view(s).Exists(c))
  }

  /** MemoryStorage as a backend: its own view. */
  function Memory(): Backend<MemoryStorage>
  {
    Backend(
      m => m,
      (m: MemoryStorage, r) => m.Store(r),
      (m: MemoryStorage, c) => m.Retrieve(c),
      (m: MemoryStorage, c) => m.Exists(c),
      (m: MemoryStorage, c) => m.Delete(c),
      (m: MemoryStorage, a) => m.StoreAnalytics(a),
      (m: MemoryStorage, c) => m.GetAnalytics(c))
  }

  /** MemoryStorage satisfies the storage contract and never fails a write. */
  lemma MemoryConforms()
    ensures Conforms(Memory()) && Reliable(Memory())
  {
  }
}

=== FILE: text.dfy ===
/** The PHP string primitives the library leans on, restricted to what it uses:
    ASCII `strtolower`, default `trim`, the `empty` test on strings and prefix tests.
    Strings are sequences of single-byte characters, so `strlen` is `|s|`. */
module Text {

  /** True for the characters PHP's `trim` strips by default: space, tab,
      newline, carriage return, NUL and vertical tab. */
  predicate IsTrimmable(c: char)
  {
    c == ' ' || c == '\t' || c == '\n' || c == '\r' || c == '\0' || c as int == 11
  }

  predicate AllTrimmable(s: string)
  {
    forall k :: 0 <= k < |s| ==> IsTrimmable(s[k])
  }

  /** Number of trimmable characters at the start of `s`. */
  function LeadingTrimmable(s: string): (n: nat)
    ensures n <= |s|
    ensures AllTrimmable(s[..n])
    ensures n < |s| ==> !IsTrimmable(s[n])
  {
    if s == [] || !IsTrimmable(s[0]) then 0
    else
      var n := 1 + LeadingTrimmable(s[1..]);
      assert s[..n] == [s[0]] + s[1..][..n - 1];
      n
  }

  /** Number of trimmable characters at the end of `s`. */
  function TrailingTrimmable(s: string): (n: nat)
    ensures n <= |s|
    ensures AllTrimmable(s[|s| - n..])
    ensures n < |s| ==> !IsTrimmable(s[|s| - n - 1])
  {
    if s == [] || !IsTrimmable(s[|s| - 1]) then 0
    else
      var t := s[..|s| - 1];
      var m := TrailingTrimmable(t);
      assert forall k :: |t| - m <= k < |t| ==> s[k] == t[k];
      1 + m
  }

  /** PHP `trim($s)` with the default character list: the longest infix of `s`
      that neither starts nor ends with a trimmable character, obtained by
      removing only trimmable characters from both ends. */
  function Trim(s: string): (r: string)
    ensures r == [] || (!IsTrimmable(r[0]) && !IsTrimmable(r[|r| - 1]))
    ensures exists i, j :: 0 <= i <= j <= |s| && r == s[i..j] && AllTrimmable(s[..i]) && AllTrimmable(s[j..])
  {
    var i := LeadingTrimmable(s);
    var t := s[i..];
    var j := i + |t| - TrailingTrimmable(t);
    assert t[|t| - TrailingTrimmable(t)..] == s[j..];
    assert s[i..j] == t[..|t| - TrailingTrimmable(t)];
    s[i..j]
  }

  /** ASCII lower-casing of one character (since PHP 8.2 `strtolower` is locale-independent). */
  function LowerChar(c: char): (r: char)
    ensures 'A' <= c <= 'Z' ==> r as int == c as int + 32
    ensures !('A' <= c <= 'Z') ==> r == c
  {
    if 'A' <= c <= 'Z' then (c as int + 32) as char else c
  }

  /** PHP `strtolower`. */
  function ToLower(s: string): (r: string)
    ensures |r| == |s|
    ensures forall k :: 0 <= k < |s| ==> r[k] == LowerChar(s[k])
  {
    seq(|s|, k requires 0 <= k < |s| => LowerChar(s[k]))
  }

  /** Lower-casing a lower-cased string changes nothing, and no upper-case ASCII
      letter survives it. */
  lemma ToLowerIdempotent(s: string)
    ensures ToLower(ToLower(s)) == ToLower(s)
    ensures forall k :: 0 <= k < |s| ==> !('A' <= ToLower(s)[k] <= 'Z')
  {
  }

  /** PHP `empty($s)` on a string: true for "" and for "0". */
  predicate PhpEmpty(s: string)
  {
    s == "" || s == "0"
  }

  predicate StartsWith(s: string, prefix: string)
  {
    |prefix| <= |s| && s[..|prefix|] == prefix
  }
}

=== FILE: validator.dfy ===
/** UrlValidator: the acceptance test the manager applies before shortening,
    and the opt-in normalization routine. PHP's `filter_var(FILTER_VALIDATE_URL)`
    and `parse_url` are not modelled; they are the oracles of a `UrlLib`. */
module Validation {
  import opened Wrappers
  import opened Text
  import opened Decimal

  /** The components `parse_url` reports; `None` is a key it did not set. */
  datatype UrlParts = UrlParts(
    scheme: Option<string>,
    host: Option<string>,
    port: Option<nat>,
    user: Option<string>,
    pass: Option<string>,
    path: Option<string>,
    query: Option<string>,
    fragment: Option<string>)
  {
    /** `parse_url` returned an empty array, which PHP treats as false. */
    predicate IsEmptyArray()
    {
      scheme.None? && host.None? && port.None? && user.None? && pass.None?
      && path.None? && query.None? && fragment.None?
    }
  }

  /** The PHP library functions the validator calls: `filter_var(..., FILTER_VALIDATE_URL)`
      as a test, and `parse_url`, which yields `None` where PHP returns false. */
  datatype UrlLib = UrlLib(
    validateUrl: string -> bool,
    parseUrl: string -> Option<UrlParts>)

  const DefaultSchemes: seq<string> := ["http", "https"]
  const DefaultMaxLength: int := 2048

  /** The validator's configuration; its getters are the two fields. */
  datatype UrlValidator = UrlValidator(allowedSchemes: seq<string>, maxLength: int)

  function DefaultValidator(): UrlValidator
  {
    UrlValidator(DefaultSchemes, DefaultMaxLength)
  }

  /** `isValid($url)`: the checks run in order (length, syntax, scheme
      present, scheme allowed, host present and non-empty) and the first that
      fails rejects. The scheme is lower-cased and then compared exactly with
      the configured entries; a host "0" counts as empty, as PHP's `empty` has it. */
  predicate IsValid(v: UrlValidator, lib: UrlLib, url: string)
    ensures IsValid(v, lib, url) <==>
      && |url| <= v.maxLength
      && lib.validateUrl(url)
      && lib.parseUrl(url).Some?
      && lib.parseUrl(url).value.scheme.Some?
      && ToLower(lib.parseUrl(url).value.scheme.value) in v.allowedSchemes
      && lib.parseUrl(url).value.host.Some?
      && !PhpEmpty(lib.parseUrl(url).value.host.value)
  {
    if |url| > v.maxLength then false
    else if !lib.validateUrl(url) then false
    else
      match lib.parseUrl(url)
      case None => false
      case Some(p) =>
        if p.scheme.None? then false
        else if ToLower(p.scheme.value) !in v.allowedSchemes then false
        else if p.host.None? || PhpEmpty(p.host.value) then false
        else true
  }

  /** An over-long string is rejected whatever the parser would say of it. */
  lemma TooLongRejected(v: UrlValidator, lib: UrlLib, url: string)
    requires |url| > v.maxLength
    ensures !IsValid(v, lib, url)
  {
  }

  /** Scheme case does not matter to validity: two URLs the parser reads alike
      up to the case of the scheme are both valid or both invalid. */
  lemma SchemeCaseIgnored(v: UrlValidator, lib: UrlLib, u1: string, u2: string)
    requires |u1| == |u2| && lib.validateUrl(u1) == lib.validateUrl(u2)
    requires lib.parseUrl(u1).Some? && lib.parseUrl(u2).Some?
    requires lib.parseUrl(u1).value.scheme.Some? && lib.parseUrl(u2).value.scheme.Some?
    requires ToLower(lib.parseUrl(u1).value.scheme.value) == ToLower(lib.parseUrl(u2).value.scheme.value)
    requires lib.parseUrl(u1).value.host == lib.parseUrl(u2).value.host
    ensures IsValid(v, lib, u1) <==> IsValid(v, lib, u2)
  {
  }

  /** With the allow-list ["ftp", "sftp"], an http URL is rejected and an ftp URL
      that passes the other checks is accepted. */
  lemma CustomSchemesExample(lib: UrlLib, httpUrl: string, ftpUrl: string)
    requires |httpUrl| <= DefaultMaxLength && |ftpUrl| <= DefaultMaxLength
    requires lib.parseUrl(httpUrl).Some? && lib.parseUrl(httpUrl).value.scheme == Some("http")
    requires lib.validateUrl(ftpUrl) && lib.parseUrl(ftpUrl).Some?
    requires lib.parseUrl(ftpUrl).value.scheme == Some("ftp")
    requires lib.parseUrl(ftpUrl).value.host == Some("example.com")
    ensures !IsValid(UrlValidator(["ftp", "sftp"], DefaultMaxLength), lib, httpUrl)
    ensures IsValid(UrlValidator(["ftp", "sftp"], DefaultMaxLength), lib, ftpUrl)
  {
    assert ToLower("http") == "http";
    assert ToLower("ftp") == "ftp";
  }

  /** The default allow-list is ["http", "https"]: an ftp URL is rejected by
      the default validator whatever else holds of it. */
  lemma DefaultRejectsFtp(lib: UrlLib, url: string)
    requires |url| <= DefaultMaxLength
    requires lib.validateUrl(url) && lib.parseUrl(url).Some?
    requires lib.parseUrl(url).value.scheme == Some("ftp")
    ensures !IsValid(DefaultValidator(), lib, url)
  {
    assert ToLower("ftp") == "ftp";
  }

  /** The first step of `normalize`: trim, then prepend "http://" unless the
      result already starts with "http://" or "https://" (case-sensitively). */
  function WithScheme(url: string): (r: string)
    ensures StartsWith(r, "http://") || StartsWith(r, "https://")
    ensures (StartsWith(Trim(url), "http://") || StartsWith(Trim(url), "https://")) ==> r == Trim(url)
    ensures !(StartsWith(Trim(url), "http://") || StartsWith(Trim(url), "https://")) ==> r == "http://" + Trim(url)
  {
    var t := Trim(url);
    if StartsWith(t, "http://") || StartsWith(t, "https://") then t else "http://" + t
  }

  /** A string that neither starts nor ends with a trimmable character is its own trim. */
  lemma TrimFixed(s: string)
    requires s == [] || (!IsTrimmable(s[0]) && !IsTrimmable(s[|s| - 1]))
    ensures Trim(s) == s
  {
    var i, j :| 0 <= i <= j <= |s| && Trim(s) == s[i..j] && AllTrimmable(s[..i]) && AllTrimmable(s[j..]);
    if i > 0 {
      assert s[..i][0] == s[0];
    }
    if j < |s| {
      assert s[j..][|s| - 1 - j] == s[|s| - 1];
    }
  }

  /** Applying the prefix rule twice is applying it once. */
  lemma WithSchemeIdempotent(url: string)
    ensures WithScheme(WithScheme(url)) == WithScheme(url)
  {
    var r := WithScheme(url);
    var t := Trim(url);
    if r != t {
      assert r == "http://" + t;
      assert r[0] == 'h';
      if t == [] {
        assert r[|r| - 1] == '/';
      } else {
        assert r[|r| - 1] == t[|t| - 1];
      }
    }
    TrimFixed(r);
  }

  /** The prefix test is case-sensitive: an upper-case scheme gets a second one. */
  lemma UpperCaseSchemePrefixed(s: string)
    requires s == "HTTP://example.com"
    ensures WithScheme(s) == "http://HTTP://example.com"
  {
    UpperSchemeShape(s);
    BareHostPrefixed(s);
  }

  /** A string that does not start with 'h' and has nothing to trim gets
      "http://" in front of it. */
  lemma BareHostPrefixed(s: string)
    requires |s| > 0 && s[0] != 'h' && !IsTrimmable(s[0]) && !IsTrimmable(s[|s| - 1])
    ensures WithScheme(s) == "http://" + s
  {
    TrimFixed(s);
    assert !StartsWith(s, "http://") && !StartsWith(s, "https://") by {
      assert s[..|s|][0] == s[0];
    }
  }

  /** The `:port` part of the rebuilt URL: present unless the port is 80 or 443,
      whatever the scheme. */
  function PortPart(port: Option<nat>): string
  {
    match port
    case Some(n) => if n != 80 && n != 443 then ":" + NatToString(n) else ""
    case None => ""
  }

  function OptionalPart(marker: string, part: Option<string>): string
  {
    match part
    case Some(s) => marker + s
    case None => ""
  }

  /** The rebuilt URL: lower-cased scheme and "://", lower-cased host, port,
      path, "?" query and "#" fragment, each only when `parse_url` set it. User
      and password are dropped. */
  function Reassemble(p: UrlParts): (r: string)
    ensures p.scheme.Some? ==> StartsWith(r, ToLower(p.scheme.value) + "://")
    ensures p.fragment.Some? ==> |r| >= |p.fragment.value| + 1 && r[|r| - |p.fragment.value| - 1..] == "#" + p.fragment.value
  {
    var head, port, tail := Head(p), PortPart(p.port), Tail(p);
    HeadStarts(p);
    PrefixOfJoin(ToLower(p.scheme.GetOr("")) + "://", head, port, tail);
    TailEnds(p);
    SuffixOfJoin("#" + p.fragment.GetOr(""), head, port, tail);
    head + port + tail
  }

  // Head, Tail and the small join lemmas below split the proofs about the
  // rebuilt URL into steps over three pieces, so that no single proof has to
  // reason about the whole concatenation at once.

  /** The part of the rebuilt URL before the port: the lower-cased scheme with
      "://" and the lower-cased host, each when set. */
  function Head(p: UrlParts): (head: string)
  {
    (match p.scheme case Some(s) => ToLower(s) + "://" case None => "")
      + (match p.host case Some(h) => ToLower(h) case None => "")
  }

  /** The part of the rebuilt URL after the port: path, "?" query and "#"
      fragment, each when set. */
  function Tail(p: UrlParts): (tail: string)
  {
    OptionalPart("", p.path) + OptionalPart("?", p.query) + OptionalPart("#", p.fragment)
  }

  lemma HeadStarts(p: UrlParts)
    ensures p.scheme.Some? ==> StartsWith(Head(p), ToLower(p.scheme.value) + "://")
  {
    if p.scheme.None? { return; }
    var x := ToLower(p.scheme.value) + "://";
    var host := match p.host case Some(h) => ToLower(h) case None => "";
    assert Head(p) == x + host;
    assert (x + host)[..|x|] == x;
  }

  lemma TailEnds(p: UrlParts)
    ensures p.fragment.Some? ==> var t, y := Tail(p), "#" + p.fragment.value; |t| >= |y| && t[|t| - |y|..] == y
  {
    if p.fragment.None? { return; }
    var a := OptionalPart("", p.path) + OptionalPart("?", p.query);
    var y := "#" + p.fragment.value;
    assert Tail(p) == a + y;
    assert (a + y)[|a + y| - |y|..] == y;
  }

  /** A prefix of the first part is a prefix of the whole. */
  lemma PrefixOfJoin(x: string, a: string, b: string, c: string)
    ensures StartsWith(a, x) ==> StartsWith(a + b + c, x)
  {
    if StartsWith(a, x) {
      assert (a + b + c)[..|x|] == a[..|x|];
    }
  }

  /** A suffix of the last part is a suffix of the whole. */
  lemma SuffixOfJoin(y: string, a: string, b: string, c: string)
    ensures |c| >= |y| && c[|c| - |y|..] == y ==> |a + b + c| >= |y| && (a + b + c)[|a + b + c| - |y|..] == y
  {
    if |c| >= |y| && c[|c| - |y|..] == y {
      assert (a + b + c)[|a + b + c| - |y|..] == c[|c| - |y|..];
    }
  }

  /** Ports 80 and 443 vanish from the rebuilt URL, for any scheme; every other
      port puts ":" and its digits right after the host, before whatever follows. */
  lemma PortDropping(p: UrlParts, n: nat)
    ensures n == 80 || n == 443 ==> Reassemble(p.(port := Some(n))) == Reassemble(p.(port := None))
    ensures n != 80 && n != 443 ==>
      |Reassemble(p.(port := Some(n)))| == |Reassemble(p.(port := None))| + 1 + |NatToString(n)|
    ensures n != 80 && n != 443 ==>
      var bare := Reassemble(p.(port := None));
      && |Head(p)| <= |bare| && bare[..|Head(p)|] == Head(p)
      && Reassemble(p.(port := Some(n))) == Head(p) + ":" + NatToString(n) + bare[|Head(p)|..]
  {
    if n == 80 || n == 443 {
      WithPort(p, None);
      WithPort(p, Some(n));
    } else {
      PortInserted(p, n);
    }
  }

  lemma PortInserted(p: UrlParts, n: nat)
    requires n != 80 && n != 443
    ensures var bare := Reassemble(p.(port := None));
      && |Head(p)| <= |bare| && bare[..|Head(p)|] == Head(p)
      && Reassemble(p.(port := Some(n))) == Head(p) + ":" + NatToString(n) + bare[|Head(p)|..]
  {
    WithPort(p, None);
    WithPort(p, Some(n));
    InsertAfter(Head(p), Tail(p), ":", NatToString(n));
  }

  /** Changing the port changes only the port part. */
  lemma WithPort(p: UrlParts, port: Option<nat>)
    ensures Reassemble(p.(port := port)) == Head(p) + PortPart(port) + Tail(p)
  {
    var q := p.(port := port);
    assert Head(q) == Head(p) && Tail(q) == Tail(p);
  }

  /** Inserting `m1 + m2` between `a` and `t` in `a + t`. */
  lemma InsertAfter(a: string, t: string, m1: string, m2: string)
    ensures var bare := a + "" + t;
      && |a| <= |bare| && bare[..|a|] == a
      && a + (m1 + m2) + t == a + m1 + m2 + bare[|a|..]
  {
    assert a + "" + t == a + t;
    assert (a + t)[..|a|] == a && (a + t)[|a|..] == t;
    assert a + (m1 + m2) + t == a + m1 + m2 + t;
  }

  /** Host case does not survive normalization. */
  lemma HostCaseIgnored(p: UrlParts, h1: string, h2: string)
    requires ToLower(h1) == ToLower(h2)
    ensures Reassemble(p.(host := Some(h1))) == Reassemble(p.(host := Some(h2)))
  {
  }

  /** The layout of the rebuilt URL when every component is set and the port
      is neither 80 nor 443: scheme, "://", host, ":" and port, path, "?" and
      query, "#" and fragment, in that order. User and password never appear. */
  lemma ReassembleLayout(p: UrlParts, s: string, h: string, port: nat, path: string, q: string, f: string)
    requires p.scheme == Some(s) && p.host == Some(h) && p.port == Some(port)
    requires p.path == Some(path) && p.query == Some(q) && p.fragment == Some(f)
    requires port != 80 && port != 443
    ensures Reassemble(p) == ToLower(s) + "://" + ToLower(h) + ":" + NatToString(port) + path + "?" + q + "#" + f
  {
  }

  /** The rebuilt URL of a scheme and a host alone: both lower-cased, joined by "://". */
  lemma ReassembleBare(scheme: string, host: string)
    ensures Reassemble(HostOnly(scheme, host)) == ToLower(scheme) + "://" + ToLower(host)
  {
  }

  /** `normalize($url)`: the prefix rule, then `parse_url`; when that fails
      (false, or an empty array) the prefixed string is returned as it is. */
  function Normalize(lib: UrlLib, url: string): (r: string)
    // parse_url failing, or returning an empty array, gives back the prefixed URL
    ensures lib.parseUrl(WithScheme(url)).None? || lib.parseUrl(WithScheme(url)).value.IsEmptyArray() ==> r == WithScheme(url)
    ensures lib.parseUrl(WithScheme(url)).Some? && lib.parseUrl(WithScheme(url)).value.scheme.Some? ==>
      StartsWith(r, ToLower(lib.parseUrl(WithScheme(url)).value.scheme.value) + "://")
  {
    var u := WithScheme(url);
    match lib.parseUrl(u)
    case None => u
    case Some(p) => if p.IsEmptyArray() then u else Reassemble(p)
  }

  function HostOnly(scheme: string, host: string): UrlParts
  {
    UrlParts(Some(scheme), Some(host), None, None, None, None, None, None)
  }

  /** When `parse_url` succeeds on the prefixed string, the result is the reassembly. */
  lemma NormalizeParsed(lib: UrlLib, url: string, p: UrlParts)
    requires lib.parseUrl(WithScheme(url)) == Some(p) && !p.IsEmptyArray()
    ensures Normalize(lib, url) == Reassemble(p)
  {
  }

  /** A bare host name normalizes to "http://" and the lower-cased host. */
  lemma NormalizeBareHost(lib: UrlLib, s: string)
    requires |s| > 0 && s[0] != 'h' && !IsTrimmable(s[0]) && !IsTrimmable(s[|s| - 1])
    requires lib.parseUrl("http://" + s) == Some(HostOnly("http", s))
    ensures Normalize(lib, s) == "http://" + ToLower(s)
  {
    BareHostPrefixed(s);
    NormalizeParsed(lib, s, HostOnly("http", s));
    ReassembleBare("http", s);
    SchemeSeparator("http");
  }

  /** "example.com" normalizes to "http://example.com", when `parse_url` splits
      the prefixed string in the usual way. */
  lemma NormalizeExampleLower(lib: UrlLib, url: string)
    requires url == "example.com"
    requires lib.parseUrl("http://example.com") == Some(HostOnly("http", "example.com"))
    ensures Normalize(lib, url) == "http://example.com"
  {
    LowerHostShape(url);
    PrefixExampleCom(url);
    NormalizeBareHost(lib, url);
  }

  /** "EXAMPLE.COM" normalizes to "http://example.com". */
  lemma NormalizeExampleUpper(lib: UrlLib, url: string)
    requires url == "EXAMPLE.COM"
    requires lib.parseUrl("http://EXAMPLE.COM") == Some(HostOnly("http", "EXAMPLE.COM"))
    ensures Normalize(lib, url) == "http://example.com"
  {
    UpperHostShape(url);
    NormalizeBareHost(lib, url);
    LowerExampleCom(url);
    PrefixExampleCom("example.com");
  }

  /** "https://EXAMPLE.COM/PATH" normalizes to "https://example.com/PATH": the
      host is lower-cased, the path keeps its case. */
  lemma NormalizeExamplePath(lib: UrlLib, url: string)
    requires url == "https://EXAMPLE.COM/PATH"
    requires lib.parseUrl("https://EXAMPLE.COM/PATH") == Some(HostOnly("https", "EXAMPLE.COM").(path := Some("/PATH")))
    ensures Normalize(lib, url) == "https://example.com/PATH"
  {
    SchemedLiteral(url);
    NormalizeParsed(lib, url, HostOnly("https", "EXAMPLE.COM").(path := Some("/PATH")));
    ReassembleExamplePath();
  }

  // The example inputs below are spelled out one literal per lemma, so that
  // each example proof only sees the few characters it needs.

  /** The characters of the example inputs that decide the prefix rule, and
      what "http://" in front of them spells. */
  lemma LowerHostShape(s: string)
    requires s == "example.com"
    ensures |s| > 0 && s[0] == 'e' && s[|s| - 1] == 'm' && ToLower(s) == s
    ensures !IsTrimmable(s[0]) && !IsTrimmable(s[|s| - 1])
  {
  }

  lemma UpperHostShape(s: string)
    requires s == "EXAMPLE.COM"
    ensures |s| > 0 && s[0] == 'E' && s[|s| - 1] == 'M' && "http://" + s == "http://EXAMPLE.COM"
    ensures !IsTrimmable(s[0]) && !IsTrimmable(s[|s| - 1])
  {
  }

  lemma UpperSchemeShape(s: string)
    requires s == "HTTP://example.com"
    ensures |s| > 0 && s[0] == 'H' && s[|s| - 1] == 'm' && "http://" + s == "http://HTTP://example.com"
    ensures !IsTrimmable(s[0]) && !IsTrimmable(s[|s| - 1])
  {
  }

  lemma SchemedLiteral(url: string)
    requires url == "https://EXAMPLE.COM/PATH"
    ensures WithScheme(url) == url
  {
    PathUrlShape(url);
    TrimFixed(url);
    assert StartsWith(url, "https://");
  }

  lemma PathUrlShape(s: string)
    requires s == "https://EXAMPLE.COM/PATH"
    ensures |s| > 8 && s[0] == 'h' && s[|s| - 1] == 'H' && s[..8] == "https://"
  {
  }

  lemma SchemeSeparator(scheme: string)
    requires scheme == "http"
    ensures ToLower(scheme) + "://" == "http://"
  {
  }

  lemma LowerExampleCom(s: string)
    requires s == "EXAMPLE.COM"
    ensures ToLower(s) == "example.com"
  {
  }

  lemma PrefixExampleCom(s: string)
    requires s == "example.com"
    ensures "http://" + s == "http://example.com"
  {
  }

  lemma ReassembleExamplePath()
    ensures Reassemble(HostOnly("https", "EXAMPLE.COM").(path := Some("/PATH"))) == "https://example.com/PATH"
  {
    ReassembleHostPath("https", "EXAMPLE.COM", "/PATH");
    LowerExampleCom("EXAMPLE.COM");
    ExamplePathLiteral("https", "example.com", "/PATH");
  }

  lemma ReassembleHostPath(scheme: string, host: string, path: string)
    ensures Reassemble(HostOnly(scheme, host).(path := Some(path))) == ToLower(scheme) + "://" + ToLower(host) + path
  {
  }

  lemma ExamplePathLiteral(scheme: string, host: string, path: string)
    requires scheme == "https" && host == "example.com" && path == "/PATH"
    ensures ToLower(scheme) + "://" + host + path == "https://example.com/PATH"
  {
  }
}

=== FILE: wrappers.dfy ===
/** Option and Result, the two failure-carrying shapes the model uses in place of
    PHP's `null` returns and thrown exceptions. */
module Wrappers {

  /** A value that may be absent (PHP `null`, or an unset array key). */
  datatype Option<+T> = None | Some(value: T) {

    /** The wrapped value, or `default` when absent (PHP's `??` operator). */
    function GetOr(default: T): T
    {
      match this
      case Some(v) => v
      case None => default
    }

    /** Applies `f` to the wrapped value, keeping absence (PHP's `?->`). */
    function Map<U>(f: T -> U): (r: Option<U>)
      ensures r.Some? <==> Some?
      ensures r.Some? ==> r.value == f(value)
    {
      match this
      case Some(v) => Some(f(v))
      case None => None
    }
  }

  /** Either a computed value or the error an operation raised. */
  datatype Result<+R, +E> = Success(value: R) | Failure(error: E)
}
